=== FILE: README.md ===
# maze-runner: the maze store and its generator, in Dafny

This project models the maze core of maze-runner, a small Arduino maze game.
A `Maze` owns two fixed arenas sized for the largest 15 by 15 maze:

- 225 cells, stored row-major;
- 480 edges, with all north/south walls first and then all east/west walls, outside walls included.

The maze also holds the current dimensions `numCols` and `numRows`. Generation works as follows:

- `genMaze` marks one random cell visited, the seed.
- It then calls `genPath` until no unvisited cell is left.
- `genPath` runs a random walk from an unvisited cell. The walk never steps straight back. At each cell it leaves, it records the direction taken (`lastWalked`), until it reaches a visited cell.
- `genPath` then replays these pointers from the start. Each replayed cell is marked visited and the wall in its `lastWalked` direction is opened.
- Finally `genMaze` flags the entrance at (0, 0) and the exit at (numCols - 1, numRows - 1).

The model keeps the source's form.

- `Direction`, `Cell` and `Edge` are datatypes (`directions.dfy`, `records.dfy`).
- The pure index arithmetic of `getCell` and `getCellEdge` consists of functions and lemmas (`grid.dfy`).
- `Maze` is a class over `array<Cell>` and `array<Edge>`. Its generator methods update those arrays in place, with loop invariants (`maze.dfy`).
- `spanning.dfy` holds the proof that a completed generation connects every cell to the entrance over open walls and opens exactly cells - 1 walls:
  - Each walk pointer leads to a cell whose last visit is later. So the replay climbs strictly in time, ends, and never cycles.
  - Between paths the maze keeps a tree invariant: walls are open only between visited cells, every visited cell except the seed points over an open wall to a visited cell of lower rank, and open walls = visited cells - 1.
  - When generation completes, the entrance therefore reaches every cell over open walls, and exactly cells - 1 walls are open.

Randomness is modelled in two ways:

- The pick in `getUnvisitedCell` is a nondeterministic choice (`:|`).
- The draws `random(FINAL_VALID + 1)` are read one by one from a finite sequence `draws`. It is a parameter, so the proofs hold for every sequence of draws. Each draw must be at most `FINAL_VALID`.

Where the source would go on drawing, the model stops when `draws` runs out. `genPath` then reports the model-only outcome `DrawsExhausted`.

The model records, for each walk, which draws it read and the route it took. So an early stop is tied to the draws running out, on the walk that really ran:

- `DrawTrace` lists, for each step of a walk, the position of the draw it took. Every draw between two accepted ones was rejected at the cell the walk stood on.
- `Route` says the walk's cells are on the grid, each step is a real step that passes the boundary test and reaches the neighbour in that direction, and no step goes straight back. A `Traced` walk has both.
- A walk is `Stuck` when every draw after its last accepted one was rejected at the cell it stands on. `StuckOn` adds that every cell of the walk, the one it is stuck on included, is unvisited.
- `DrawsExhausted` means the draws ran out on a traced walk that is `StuckOn` the cells the walk was run on.
- `Chain` says that the walks of one `genMaze` read the draws one after another, the first from position 0.
- An incomplete `GenMaze` has read every draw, and its last walk is `StuckOn` the final cells.
- A committed path is tied to its walk and its replay. The cells after the walk differ from the cells before only in the pointers the walk left; a cell holds the step taken at its last visit (`PointersOf`). The replay starts at the walk's start and follows these pointers (`ReplayPath`). It marks exactly the cells it leaves visited and opens exactly the walls it crosses, changing nothing else (`Replayed`), and it stops at the first cell that was already visited.
- In a grid of at least 2 by 2, a stuck cell always accepts some direction that no remaining draw offered (`StuckMissesAcceptable`). So the stop is the draws' fault, not the grid's.

The code leaves three cases unhandled; the model handles them as follows:

- The code has no reset before a second generation, so `GenMaze` requires a fresh maze.
- `getCellEdge` with `NONE` is not handled by the code, so it is a precondition.
- A 1 by 1 maze does not work in the code (see Findings).

## Model

| member | source | states |
|---|---|---|
| Directions.FromOrdinal | types.h:7-14 | the cast of an ordinal 0..4 back to the enum gives the direction with that ordinal |
| Directions.OrdinalRoundTrip | types.h:7-14 | casting a direction's ordinal back gives the same direction |
| Directions.FinalValidBoundsRealDirections | types.h:12-13 | `FINAL_VALID` is west's ordinal, `NONE` is the next one, and a direction is real exactly when its ordinal is at most `FINAL_VALID` |
| Directions.RandomDrawIsReal | maze.cpp:165 | every value of `random(FINAL_VALID + 1)` cast to a direction is north, east, south or west, never `NONE` |
| Directions.Opposite | maze.cpp:197-213 | the direction back after a step is a real direction other than the step, two ordinals round |
| Directions.OppositeInvolution | maze.cpp:197-213 | turning back twice faces the original way |
| Grid.CapacityValues | maze.h:15-25 | the cell arena has 15 * 15 = 225 slots and the edge arena 15 * 16 + 15 * 16 = 480 |
| Grid.ActiveCount | maze.h:18-19 | the current grid has between 1 and 225 cells, so it fits the cell arena |
| Grid.CellIndex | maze.cpp:105-107 | `getCell(col, row)` is an active slot whose remainder and quotient by `numCols` are `col` and `row` (row-major) |
| Grid.ActivePosition | maze.cpp:43-45 | the position `(i % numCols, i / numCols)` of every active slot lies on the grid |
| Grid.IndexRoundTrip | maze.cpp:105-107 | `getCell` of slot i's position is slot i again |
| Grid.StepInside | maze.cpp:166-170 | from a cell on the grid, the boundary test passes exactly for the steps whose target is on the grid |
| Grid.AcceptableDirectionExists | maze.cpp:164-185 | with at least two rows and two columns, some real direction is acceptable from every cell, whatever the direction back |
| Grid.CorridorEndIsStuck | maze.cpp:164-185 | in a single-row grid the end cell entered from its only neighbour has no acceptable direction |
| Grid.EdgeCapacitySuffices | maze.h:21-25 | for every current size up to 15 by 15, the edges addressed, `numCols * (numRows + 1) + numRows * (numCols + 1)`, fit the 480-slot arena |
| Grid.EdgeArithmetic | maze.cpp:90-98 | the north/south indices lie below `numCols * (numRows + 1)`, and the east/west index expressions below `numRows * (numCols + 1)` |
| Grid.CellEdge | maze.cpp:89-100 | `getCellEdge` returns a slot inside the addressed edges, and it lies before `eastWestOffset` exactly for north and south |
| Grid.SharedWall | maze.cpp:94-98 | two neighbours share one edge record: east of (x, y) is west of (x + 1, y), south of (x, y) is north of (x, y + 1), and so on |
| Grid.CellEdgeInjective | maze.cpp:94-98 | one edge slot belongs only to the same side of the same cell, or to the two facing sides of two neighbours |
| Grid.NeighborOf | maze.cpp:197-213 | a step that passes the boundary test from an active slot reaches a different active slot |
| Grid.EdgeOf | maze.cpp:229 | the edge of a cell of the current grid, in any real direction, lies inside the 480-slot arena |
| Grid.StepBack | maze.cpp:197-213 | a step can be undone by the opposite step, and both cross the same edge record |
| Grid.EdgeOfInjective | maze.cpp:94-98 | two slot/direction pairs with the same edge are equal, or are two neighbours stepping into each other |
| Records.VisitedCountMark | maze.cpp:228 | marking one unvisited cell visited, with no other flag changed, adds exactly one to the visited count |
| Records.VisitedCountFull | maze.cpp:136-138 | the visited count equals the number of cells exactly when every cell is visited |
| Records.OpenCountOpen | maze.cpp:229 | opening one blocking edge, with no other edge changed, adds exactly one to the open count |
| Spanning.SeedTree | maze.cpp:134 | marking one cell of a fresh maze visited establishes the tree invariant: one visited cell, no open wall |
| Spanning.BorderStaysClosed | maze.cpp:229 | under the tree invariant every wall on the border of the grid is still blocking |
| Spanning.WalkStart | maze.cpp:158-159 | a walk standing on its start cell at time 0 satisfies the walk invariant |
| Spanning.WalkStep | maze.cpp:194-213 | writing the accepted direction into the current cell and moving on keeps every pointer of the walk leading to a cell whose last visit is later |
| Spanning.TreeInvSkeleton | maze.cpp:194 | changes that keep every visited flag and every visited cell's pointer keep the tree invariant |
| Spanning.CommitStart | maze.cpp:218 | a finished walk from the tree invariant can be replayed from its start |
| Spanning.CommitStep | maze.cpp:219-244 | one replay step at an unvisited cell: its pointer is a real inner step, the wall it crosses is still closed, the next cell was visited later in the walk, the visited count grows by one, and the replay invariant holds one step further |
| Spanning.CommitEnd | maze.cpp:219 | when the replay reaches a visited cell, the tree invariant holds again |
| Spanning.ReachesRoot | maze.cpp:228-244 | under the tree invariant every visited cell reaches the seed over open inner walls |
| Spanning.LeadsReverse | maze.cpp:94-98 | a walk over open walls can be walked back, reversed and turned round |
| Spanning.LeadsAppend | maze.cpp:228-244 | two walks over open walls, one after the other, are a walk over open walls |
| Spanning.EntranceReaches | maze.cpp:141-142 | under the tree invariant the entrance slot 0 reaches every visited cell over open walls |
| Spanning.CompleteTree | maze.cpp:132-146 | once every cell is visited, exactly cells - 1 walls are open and the entrance reaches every cell |
| Mazes.CandidatesExact | maze.cpp:118-123 | the scan's candidate list holds exactly the unvisited slots it looked at |
| Mazes.ChooseDirection | maze.cpp:164-185 | the rejection loop accepts the first draw that neither leaves the grid nor leads straight back and rejects all before it; with none left it reads the draws to their end |
| Mazes.AsWrittenScanMissesOnlyCell | maze.cpp:115-129 | as written, a 1 by 1 maze scans no slot and returns NULL although its cell is unvisited |
| Mazes.AsWrittenScanBoundIsWrong | maze.cpp:115 | as written, the 15 by 15 bound is never 225: it is 224 for one-byte cells, and past the 225-slot arena for the real cells of two bytes or more |
| Mazes.AsWrittenScanReachesOffGrid | maze.cpp:115-123 | as written, with cells of two bytes or more and a grid of three cells or more, the bound passes the active slots, and the first slot off the grid becomes a candidate when it is unvisited |
| Mazes.OffGridSouthUnblocked | maze.cpp:165-170 | from a slot off the grid the boundary test never rejects south, and `getCell` moves `numCols` slots on, again off the grid |
| Mazes.DrawTraceStart | maze.cpp:158-160 | a walk that has taken no step has read no draw and reads on at its first position |
| Mazes.DrawTraceStep | maze.cpp:164-185 | accepting a draw after rejecting every draw since the last accepted one extends the draw trace by one step, and reading goes on right after it |
| Mazes.RejectedMissesAcceptable | maze.cpp:164-185 | with at least two rows and two columns, when every draw from some position on is rejected at a cell, some acceptable direction at that cell was never drawn |
| Mazes.StuckMissesAcceptable | maze.cpp:164-185 | with at least two rows and two columns, a stuck walk's cell accepts some direction that no draw after the walk's last accepted one offered |
| Mazes.ChainStep | maze.cpp:137-139 | a walk that begins reading where the earlier walks stopped extends the chain, which then stops where that walk does |
| Mazes.StridingStep | maze.cpp:164-213 | one accepted step keeps the walk invariant and the draw trace together, with reading going on after the accepted draw |
| Mazes.ReadingStep | maze.cpp:137-139 | one more `genPath()` keeps the record of the loop: a traced walk that reads on where the earlier ones stopped extends the chain; a committed one stops where it does, and a stuck one with all its cells unvisited has read every draw |
| Mazes.WalkRoute | maze.cpp:158-215 | a walk in progress is a real route from its start to the current cell, never straight back, through cells unvisited before and after its pointer writes |
| Mazes.WalkPointers | maze.cpp:194 | once the walk stands on a visited cell, each cell off its path is unchanged and each cell it left holds the step taken at its last visit (last write wins) |
| Mazes.ReplayBegin | maze.cpp:218 | the replay starting at the path start has left no cell and crossed no wall |
| Mazes.ReplayFresh | maze.cpp:219-244 | the cell the replay stands on is not one it has left, since it was visited by the walk after all of them |
| Mazes.ReplayPathStep | maze.cpp:231-244 | following the old pointer of the unvisited current cell extends the replayed route by one cell and the wall between them |
| Mazes.ReplayCellsStep | maze.cpp:228 | marking the current cell visited keeps "exactly the cells left are marked" one step further |
| Mazes.ReplayEdgesStep | maze.cpp:229 | opening the current cell's wall keeps "exactly the walls crossed are open" one step further |
| Mazes.ReplayOrderStep | maze.cpp:231-244 | a next cell visited later in the walk keeps every cell left before the cell the replay stands on, in walk time |
| Mazes.ReplayStep | maze.cpp:228-244 | one replay step at an unvisited cell whose pointer leads to a cell visited later: marking it and opening its wall extends the replay by exactly that cell and that wall |
| Mazes.ReplayEnd | maze.cpp:219 | the cell where the replay stops because it is visited was visited before the replay |
| Mazes.CommittingStep | maze.cpp:219-244 | one pass of the replay loop keeps the tree bookkeeping and the replay record together: the start is visited, the visited count grew, cells only gain visited flags, walls only open, and the route is one cell longer |
| Mazes.MoveThrough | maze.cpp:197-213 | the switch moves to the neighbour in the accepted direction and records the opposite direction as the one leading back |
| Mazes.LastWritesStep | maze.cpp:194 | writing the pointer of the current cell keeps the record of the walk's writes: every cell off the path is unchanged, and every other cell on the path holds the step taken at its last visit |
| Mazes.WalkAdvance | maze.cpp:160-214 | one accepted step that is not straight back keeps the walk invariant: pointer writes only, real inner steps through unvisited cells, no reversal, pointers ascending in time, last write wins |
| Mazes.WalkThenCommit | maze.cpp:160-245 | the walk changes no visited flag, and walk plus commit only raise visited flags and keep the entrance/exit flags and positions |
| Mazes.PointersOnlyKeepsTree | maze.cpp:194 | the walk's pointer writes at unvisited cells keep the tree invariant and the positions |
| Mazes.Maze.constructor | maze.cpp:16-54 | every slot starts unvisited, with no direction and no flags, at position `(i % numCols, i / numCols)`; every edge starts blocking |
| Mazes.Maze.GetUnvisitedCell | maze.cpp:113-130 | returns NULL exactly when every cell of the current grid is visited, and otherwise an unvisited cell of the current grid from the candidate list |
| Mazes.Maze.WalkCell | maze.cpp:194-213 | one step writes the accepted direction into exactly the current cell and moves to its neighbour, recording the opposite direction as the way back |
| Mazes.Maze.WalkOn | maze.cpp:160-214 | one pass of the walk loop at an unvisited cell: an accepted draw appends one step to the walk, the current cell to the path and the draw's position to the trace, writes that step into exactly the current cell, sets the way back to its opposite and advances the clock by one; every draw since the last accepted one was rejected at that cell; with no draw accepted nothing changes, and every draw left was rejected there |
| Mazes.Maze.Walk | maze.cpp:158-215 | the walk changes only the pointers of the cells it stood on, all unvisited; a cell off the path is unchanged, and a cell on it holds the direction taken at its last visit; it takes real inner steps, never straight back; step k is the draw at `acc[k]`, and every draw in between was rejected at the cell it stood on; it stops right after its last accepted draw on the first visited cell, or, with the draws used up, on an unvisited cell where every draw after the last accepted one was rejected |
| Mazes.Maze.CommitCell | maze.cpp:228-244 | one replay step marks exactly the current cell visited, opens exactly the edge in its `lastWalked` direction, and moves to that neighbour |
| Mazes.Maze.Commit | maze.cpp:218-245 | the replay ends; its cells `chain` start at the path start, each follows the one before in that one's old `lastWalked` direction, all but the last were unvisited and the last was already visited; exactly the cells it left are marked visited and exactly the walls it crossed are opened, nothing else changes; the visited count grows and the tree invariant holds again |
| Mazes.Maze.GenPath | maze.cpp:153-249 | reports no unvisited cell exactly when every cell was visited, changing nothing; otherwise its walk record `w` reads the draws from `pos` along a real route from an unvisited cell through cells unvisited before; a committed path ends right after the walk's last accepted draw on a cell visited before, the walk left only its pointers, last write winning, and the replay from the walk's start follows them, marking exactly the cells it leaves and opening exactly the walls it crosses, and the visited count grows; `DrawsExhausted` means the draws ran out with the walk stuck, all its cells unvisited; the tree invariant is kept, visited flags only rise, walls only open |
| Mazes.Maze.Seed | maze.cpp:134 | exactly one cell changes: an unvisited cell of the current grid becomes visited, which starts the tree and sets no entrance or exit flag |
| Mazes.Maze.MarkEnds | maze.cpp:141-145 | exactly `getCell(0, 0)` is the entrance and exactly `getCell(numCols - 1, numRows - 1)` the exit; visited flags and pointers are unchanged |
| Mazes.Maze.NextPath | maze.cpp:137 | one `genPath()` of the loop: no unvisited cell leaves the walks and the count as they are, with every cell visited; otherwise the walk is appended to the chain, reads on where the earlier ones stopped, and a committed one grows the visited count; on `DrawsExhausted` every draw is read and the last walk is stuck with all its cells unvisited |
| Mazes.Maze.GenPaths | maze.cpp:137-139 | `while(genPath())`: the walks read the draws one after another from position 0 along real routes; it ends complete, with every cell visited, right after the last walk's draws, or with every draw read and the last walk stuck with all its cells unvisited |
| Mazes.Maze.GenMaze | maze.cpp:132-146 | keeps the tree invariant, flags exactly the entrance and the exit; it is complete exactly when every cell is visited, and then cells - 1 walls are open and the entrance reaches every cell over open walls; otherwise it has read all of the draws and its last walk is stuck with all its cells unvisited |

## Left out

- Drawing is not modelled: `draw`, `drawCell`, `Cell::draw`, `Cell::toString`, the colour statics, and the cell size and padding computed from the display (maze.cpp:23-40). These are calls into the display library.
- `Serial` output is not modelled. The `LinkedList` of candidates is a `seq` of slots.
- welcome.cpp is not part of this model: it is screen text and timing.
- `checkMove` is declared in maze.h without a body, so it is not modelled.
- The `start` and `finish` reference members are not modelled. Both are bound to `cells[0]` (maze.h:30-31), so the constructor's `finish = cells[numCols * numRows - 1]` (maze.cpp:21) copies the last active slot into cell 0. This has no lasting effect: every slot still holds its default values at that point, and maze.cpp:42-44 then sets every position. The entrance and exit are the flags.
- Random numbers are not modelled as random. The cell pick is a nondeterministic choice and the direction draws are a finite sequence parameter. Almost-sure termination of the walk and the distribution over mazes are probabilistic properties outside the model.
- Mazes.Maze.GenPath: when the draws run out mid-walk it returns `DrawsExhausted`, where the source would keep drawing. The properties hold for every finite sequence of draws.
- Mazes.ChooseDirection: the source loops forever when no direction is acceptable, as at the end of a one-row or one-column corridor (`Grid.CorridorEndIsStuck`). The model reads the draws to their end instead.
- Grid.CellEdge: `getCellEdge` with `NONE` falls off the end of the switch without returning, so the model requires a real direction.
- Mazes.Maze.GenMaze: it requires a fresh maze (`Pristine`). The source has no reset. On a second `genMaze` over a fully visited maze, the intended scan makes `getUnvisitedCell` return NULL, and maze.cpp:134 dereferences it. As written, it may instead seed an off-grid slot (see Findings).
- Mazes.Maze.GenMaze: a completed generation is proved connected with exactly cells - 1 open walls. The graph-theory step from there to "no cycle of open walls", which makes the maze a spanning tree, is not proved.
- Integer width is not modelled: every index and count stays below 480, far inside the range of `int`.

## Findings

| source | as written | input that shows it | evidently intended | confidence | as-written member | corrected member |
|---|---|---|---|---|---|---|
| maze.cpp:115 | `getUnvisitedCell` scans `sizeof(cells[0]) * (numCols * numRows - 1)` slots | a 1 by 1 maze: the bound is 0, so it returns NULL although the only cell is unvisited, and `genMaze` dereferences it (maze.cpp:134) | scan the `numCols * numRows` active slots | not executed | Mazes.AsWrittenScanMissesOnlyCell | Mazes.Maze.GetUnvisitedCell |
| maze.cpp:115 | the same bound, with the real cells of two bytes or more | a 3 by 1 maze: the bound is at least 4, so the unvisited slot 3 off the grid can be returned as a path start; from it the boundary test never rejects south (maze.cpp:169 compares `posY` with `numRows - 1` only), so a walk that keeps drawing south reads past the end of the cell arena; for 15 by 15 the bound is past the 225-slot arena from the start | scan the `numCols * numRows` active slots | not executed | Mazes.AsWrittenScanReachesOffGrid | Mazes.Maze.GetUnvisitedCell |

=== FILE: directions.dfy ===
/**
 * The compass directions of the maze (types.h): four real directions with
 * the ordinals 0..3, an alias for the largest of them used to bound random
 * draws, and a sentinel for "no direction".
 */
module Directions {

  /** `enum Direction`; `None` is the source's `NONE`. */
  datatype Direction = North | East | South | West | None

  /** The enum value's ordinal: north = 0, east = 1, south = 2, west = 3, NONE next. */
  function Ordinal(d: Direction): nat
  {
    match d
    case North => 0
    case East => 1
    case South => 2
    case West => 3
    case None => 4
  }

  /** `FINAL_VALID = west`: the largest ordinal of a real direction. */
  const FINAL_VALID: nat := 3

  /** The cast `Direction(k)` of an ordinal back to the enum. */
  function FromOrdinal(k: nat): (d: Direction)
    requires k <= Ordinal(None)
    ensures Ordinal(d) == k
  {
    if k == 0 then North
    else if k == 1 then East
    else if k == 2 then South
    else if k == 3 then West
    else None
  }

  /** The ordinals of the enum are distinct, so the cast inverts them. */
  lemma OrdinalRoundTrip(d: Direction)
    ensures FromOrdinal(Ordinal(d)) == d
  {
  }

  /**
   * `FINAL_VALID` names west, and `NONE` is the one ordinal after it:
   * the real directions are exactly the ordinals 0..FINAL_VALID.
   */
  lemma FinalValidBoundsRealDirections(d: Direction)
    ensures FINAL_VALID == Ordinal(West) && Ordinal(None) == FINAL_VALID + 1
    ensures d != None <==> Ordinal(d) <= FINAL_VALID
  {
  }

  /** `Direction(random(FINAL_VALID + 1))` is always a real direction. */
  lemma RandomDrawIsReal(k: nat)
    requires k <= FINAL_VALID
    ensures FromOrdinal(k) != None
    ensures Ordinal(FromOrdinal(k)) == k
  {
  }

  /** The direction leading straight back after a step in `d`. */
  function Opposite(d: Direction): (r: Direction)
    requires d != None
    ensures r != None && r != d
    ensures Ordinal(r) == (Ordinal(d) + 2) % 4
  {
    match d
    case North => South
    case East => West
    case South => North
    case West => East
  }

  /** Turning back twice faces the original way. */
  lemma OppositeInvolution(d: Direction)
    requires d != None
    ensures Opposite(Opposite(d)) == d
  {
  }
}

=== FILE: grid.dfy ===
/**
 * Grid addressing of the maze (maze.h, and the index arithmetic of maze.cpp):
 * the fixed capacities of the two arenas, row-major cell slots, the walk's
 * boundary test and step, and the flat edge layout with its north/south
 * region followed by its east/west region.
 */
module Grid {
  import opened Directions

  /** The largest maze the arenas are sized for. */
  const MAX_COLS: int := 15
  const MAX_ROWS: int := 15

  /** `cells[MAX_COLS * MAX_ROWS]`. */
  const CELL_CAPACITY: int := MAX_COLS * MAX_ROWS

  /** `edges[(MAX_COLS * (MAX_ROWS + 1)) + (MAX_ROWS * (MAX_COLS + 1))]`. */
  const EDGE_CAPACITY: int := MAX_COLS * (MAX_ROWS + 1) + MAX_ROWS * (MAX_COLS + 1)

  lemma CapacityValues()
    ensures CELL_CAPACITY == 225 && EDGE_CAPACITY == 480
  {
  }

  /** The current dimensions fit the arenas. */
  predicate ValidDims(cols: int, rows: int)
  {
    1 <= cols <= MAX_COLS && 1 <= rows <= MAX_ROWS
  }

  // ---------------------------------------------------------------------
  // Arithmetic helpers

  lemma MulMonotone(a: int, b: int, c: int, d: int)
    requires 0 <= a <= c && 0 <= b <= d
    ensures a * b <= c * d
  {
    assert a * b <= c * b;
    assert c * b <= c * d;
  }

  lemma MulAtLeast(k: int, n: int)
    requires 1 <= k && 0 < n
    ensures n <= k * n
  {
    assert k * n == (k - 1) * n + n;
  }

  /** Euclidean division by `n` recovers the quotient and remainder of `r + q * n`. */
  lemma {:induction false} DivModOf(n: int, q: int, r: int)
    requires 0 < n && 0 <= r < n
    ensures (r + q * n) / n == q && (r + q * n) % n == r
  {
    var a := r + q * n;
    var q', r' := a / n, a % n;
    assert a == q' * n + r';
    assert (q - q') * n == r' - r;
    if q - q' >= 1 {
      MulAtLeast(q - q', n);
    } else if q' - q >= 1 {
      MulAtLeast(q' - q, n);
    }
  }

  // ---------------------------------------------------------------------
  // Cells: row-major slots

  /** The number of cells of the current grid; never more than the arena holds. */
  function ActiveCount(cols: int, rows: int): (n: int)
    requires ValidDims(cols, rows)
    ensures 1 <= n <= CELL_CAPACITY
  {
    MulMonotone(1, 1, cols, rows);
    MulMonotone(cols, rows, MAX_COLS, MAX_ROWS);
    cols * rows
  }

  /** Slot `i` holds a cell of the current grid. */
  predicate Active(cols: int, rows: int, i: int)
    requires ValidDims(cols, rows)
  {
    0 <= i < ActiveCount(cols, rows)
  }

  /**
   * `getCell(col, row)`: the slot of the cell at column `col`, row `row`,
   * which is the slot whose position the constructor sets to `(col, row)`.
   */
  function CellIndex(cols: int, rows: int, col: int, row: int): (i: int)
    requires ValidDims(cols, rows)
    requires 0 <= col < cols && 0 <= row < rows
    ensures Active(cols, rows, i)
    ensures i % cols == col && i / cols == row
  {
    DivModOf(cols, row, col);
    MulMonotone(row, cols, rows - 1, cols);
    assert (rows - 1) * cols == cols * rows - cols;
    col + row * cols
  }

  /** The position `(i % numCols, i / numCols)` of an active slot lies on the grid. */
  lemma ActivePosition(cols: int, rows: int, i: int)
    requires ValidDims(cols, rows) && Active(cols, rows, i)
    ensures 0 <= i % cols < cols && 0 <= i / cols < rows
  {
    var q := i / cols;
    assert i == q * cols + i % cols;
    if q >= rows {
      MulMonotone(rows, cols, q, cols);
      assert false;
    }
  }

  /** The index round trip: the slot of slot i's position is i again. */
  lemma IndexRoundTrip(cols: int, rows: int, i: int)
    requires ValidDims(cols, rows) && Active(cols, rows, i)
    ensures 0 <= i % cols < cols && 0 <= i / cols < rows
    ensures CellIndex(cols, rows, i % cols, i / cols) == i
  {
    ActivePosition(cols, rows, i);
    assert i == i % cols + (i / cols) * cols;
  }

  // ---------------------------------------------------------------------
  // The walk's boundary test and step

  /**
   * The boundary part of the rejection test of the random walk: `d` would
   * lead from `(x, y)` off the grid.
   */
  predicate Blocked(cols: int, rows: int, x: int, y: int, d: Direction)
  {
    || (d == North && y == 0)
    || (d == East && x == cols - 1)
    || (d == South && y == rows - 1)
    || (d == West && x == 0)
  }

  /** The whole rejection test negated: `d` is neither off the grid nor straight back. */
  predicate Acceptable(cols: int, rows: int, x: int, y: int, d: Direction, back: Direction)
  {
    !Blocked(cols, rows, x, y, d) && d != back
  }

  /** The neighbour position one step in `d` (origin at the top left). */
  function Step(x: int, y: int, d: Direction): (int, int)
    requires d != None
  {
    match d
    case North => (x, y - 1)
    case East => (x + 1, y)
    case South => (x, y + 1)
    case West => (x - 1, y)
  }

  /** From a cell of the grid, the boundary test passes exactly for steps that stay on the grid. */
  lemma StepInside(cols: int, rows: int, x: int, y: int, d: Direction)
    requires 0 <= x < cols && 0 <= y < rows && d != None
    ensures !Blocked(cols, rows, x, y, d) <==>
            (0 <= Step(x, y, d).0 < cols && 0 <= Step(x, y, d).1 < rows)
  {
  }

  /**
   * With at least two rows and two columns every cell has an acceptable
   * direction, whatever direction the walk came from: the rejection loop
   * always has something to accept.
   */
  lemma AcceptableDirectionExists(cols: int, rows: int, x: int, y: int, back: Direction)
    requires 2 <= cols && 2 <= rows && 0 <= x < cols && 0 <= y < rows
    ensures exists d :: d != None && Acceptable(cols, rows, x, y, d, back)
  {
    var vertical := if y == 0 then South else North;
    var horizontal := if x == 0 then East else West;
    if vertical != back {
      assert Acceptable(cols, rows, x, y, vertical, back);
    } else {
      assert Acceptable(cols, rows, x, y, horizontal, back);
    }
  }

  /**
   * In a single-row grid, the far end cell entered from its only neighbour
   * has no acceptable direction at all: the rejection loop can never end.
   */
  lemma CorridorEndIsStuck(cols: int, x: int, d: Direction)
    requires 2 <= cols && x == cols - 1 && d != None
    ensures !Acceptable(cols, 1, x, 0, d, West)
  {
  }

  // ---------------------------------------------------------------------
  // Edges: north/south region first, then east/west region

  /** `eastWestOffset`: the east/west edges start after all north/south edges. */
  function EastWestOffset(cols: int, rows: int): int
  {
    cols * (rows + 1)
  }

  /** The number of edge slots a `cols` by `rows` maze addresses, outside edges included. */
  function EdgeCount(cols: int, rows: int): int
  {
    EastWestOffset(cols, rows) + rows * (cols + 1)
  }

  /** The edge arena is large enough for every grid that fits the cell arena. */
  lemma EdgeCapacitySuffices(cols: int, rows: int)
    requires ValidDims(cols, rows)
    ensures EdgeCount(cols, rows) <= EDGE_CAPACITY
    ensures ActiveCount(cols, rows) <= CELL_CAPACITY
  {
    MulMonotone(cols, rows + 1, MAX_COLS, MAX_ROWS + 1);
    MulMonotone(rows, cols + 1, MAX_ROWS, MAX_COLS + 1);
  }

  /** The four index expressions of `getCellEdge` stay inside their regions. */
  lemma EdgeArithmetic(cols: int, rows: int, x: int, y: int)
    requires 1 <= cols && 1 <= rows && 0 <= x < cols && 0 <= y < rows
    ensures 0 <= x + y * cols && x + (y + 1) * cols < cols * (rows + 1)
    ensures 0 <= x + y * (cols + 1) && (x + 1) + y * (cols + 1) < rows * (cols + 1)
  {
    MulMonotone(y + 1, cols, rows, cols);
    MulMonotone(y, cols + 1, rows - 1, cols + 1);
    assert (rows - 1) * (cols + 1) == rows * (cols + 1) - (cols + 1);
    assert cols * (rows + 1) == rows * cols + cols;
    assert y * cols <= (y + 1) * cols;
  }

  /**
   * `getCellEdge(x, y, dir)`: the slot of the wall of cell `(x, y)` on side
   * `d`. Every slot lies inside the addressed region, and the north/south
   * sides are exactly the slots before `eastWestOffset`.
   */
  function CellEdge(cols: int, rows: int, x: int, y: int, d: Direction): (e: int)
    requires 1 <= cols && 1 <= rows
    requires 0 <= x < cols && 0 <= y < rows && d != None
    ensures 0 <= e < EdgeCount(cols, rows)
    ensures (d == North || d == South) <==> e < EastWestOffset(cols, rows)
  {
    var offset := EastWestOffset(cols, rows);
    EdgeArithmetic(cols, rows, x, y);
    match d
    case North => x + y * cols
    case South => x + (y + 1) * cols
    case West => offset + x + y * (cols + 1)
    case East => offset + (x + 1) + y * (cols + 1)
  }

  /**
   * Aliasing: two neighbours share one wall record. The east side of (x, y)
   * is the west side of (x + 1, y), the south side of (x, y) the north side
   * of (x, y + 1), and likewise for the other two directions.
   */
  lemma SharedWall(cols: int, rows: int, x: int, y: int, d: Direction)
    requires 1 <= cols && 1 <= rows
    requires 0 <= x < cols && 0 <= y < rows && d != None
    requires !Blocked(cols, rows, x, y, d)
    ensures 0 <= Step(x, y, d).0 < cols && 0 <= Step(x, y, d).1 < rows
    ensures CellEdge(cols, rows, x, y, d) ==
            CellEdge(cols, rows, Step(x, y, d).0, Step(x, y, d).1, Opposite(d))
  {
  }

  /**
   * Conversely, one slot is the wall of at most two cells: the same side of
   * the same cell, or the two facing sides of two neighbours.
   */
  lemma {:induction false} CellEdgeInjective(cols: int, rows: int, x: int, y: int, d: Direction,
                                              x': int, y': int, d': Direction)
    requires 1 <= cols && 1 <= rows
    requires 0 <= x < cols && 0 <= y < rows && d != None
    requires 0 <= x' < cols && 0 <= y' < rows && d' != None
    requires CellEdge(cols, rows, x, y, d) == CellEdge(cols, rows, x', y', d')
    ensures || (x == x' && y == y' && d == d')
            || (!Blocked(cols, rows, x, y, d) && Step(x, y, d) == (x', y') && d' == Opposite(d))
  {
    var offset := EastWestOffset(cols, rows);
    if d == North || d == South {
      var k := if d == North then y else y + 1;
      var k' := if d' == North then y' else y' + 1;
      assert x + k * cols == x' + k' * cols;
      DivModOf(cols, k, x);
      DivModOf(cols, k', x');
    } else {
      var j := if d == West then x else x + 1;
      var j' := if d' == West then x' else x' + 1;
      assert j + y * (cols + 1) == j' + y' * (cols + 1);
      DivModOf(cols + 1, y, j);
      DivModOf(cols + 1, y', j');
    }
  }

  // ---------------------------------------------------------------------
  // The same addressing on slots: the walk moves between slots through
  // `getCell(posX ± 1, posY ± 1)`, with the position of a slot derived from it

  /** The walk may step from active slot `i` in the real direction `d`. */
  predicate CanStep(cols: int, rows: int, i: int, d: Direction)
    requires ValidDims(cols, rows)
  {
    Active(cols, rows, i) && d != None && !Blocked(cols, rows, i % cols, i / cols, d)
  }

  /** The slot reached from slot `i` by one step in `d`; an active slot other than `i`. */
  function NeighborOf(cols: int, rows: int, i: int, d: Direction): (j: int)
    requires ValidDims(cols, rows) && CanStep(cols, rows, i, d)
    ensures Active(cols, rows, j) && j != i
  {
    ActivePosition(cols, rows, i);
    StepInside(cols, rows, i % cols, i / cols, d);
    var p := Step(i % cols, i / cols, d);
    CellIndex(cols, rows, p.0, p.1)
  }

  /** `getCellEdge(posX, posY, d)` for the cell in slot `i`: always inside the edge arena. */
  function EdgeOf(cols: int, rows: int, i: int, d: Direction): (e: int)
    requires ValidDims(cols, rows) && Active(cols, rows, i) && d != None
    ensures 0 <= e < EdgeCount(cols, rows) <= EDGE_CAPACITY
  {
    ActivePosition(cols, rows, i);
    EdgeCapacitySuffices(cols, rows);
    CellEdge(cols, rows, i % cols, i / cols, d)
  }

  /**
   * Aliasing on slots: the step from `i` in `d` can be undone by a step in
   * the opposite direction, and both see the same wall record.
   */
  lemma StepBack(cols: int, rows: int, i: int, d: Direction)
    requires ValidDims(cols, rows) && CanStep(cols, rows, i, d)
    ensures CanStep(cols, rows, NeighborOf(cols, rows, i, d), Opposite(d))
    ensures NeighborOf(cols, rows, NeighborOf(cols, rows, i, d), Opposite(d)) == i
    ensures EdgeOf(cols, rows, NeighborOf(cols, rows, i, d), Opposite(d)) == EdgeOf(cols, rows, i, d)
  {
    var j := NeighborOf(cols, rows, i, d);
    ActivePosition(cols, rows, i);
    SharedWall(cols, rows, i % cols, i / cols, d);
    IndexRoundTrip(cols, rows, i);
  }

  /**
   * One wall slot belongs to at most two slot-direction pairs: the same
   * pair, or two neighbours facing each other across it.
   */
  lemma EdgeOfInjective(cols: int, rows: int, i: int, d: Direction, j: int, d': Direction)
    requires ValidDims(cols, rows)
    requires Active(cols, rows, i) && d != None && Active(cols, rows, j) && d' != None
    requires EdgeOf(cols, rows, i, d) == EdgeOf(cols, rows, j, d')
    ensures || (i == j && d == d')
            || (CanStep(cols, rows, i, d) && NeighborOf(cols, rows, i, d) == j &&
                CanStep(cols, rows, j, d') && NeighborOf(cols, rows, j, d') == i)
  {
    ActivePosition(cols, rows, i);
    ActivePosition(cols, rows, j);
    IndexRoundTrip(cols, rows, i);
    IndexRoundTrip(cols, rows, j);
    CellEdgeInjective(cols, rows, i % cols, i / cols, d, j % cols, j / cols, d');
    if !(i == j && d == d') {
      StepBack(cols, rows, i, d);
    }
  }
}

=== FILE: maze.dfy ===
/**
 * The maze of maze.cpp / maze.h: a fixed arena of cells and one of edges,
 * the current dimensions, and the generator (`getUnvisitedCell`, `genPath`
 * with its walk and commit phases, `genMaze`).
 *
 * Randomness: the pick among unvisited cells is a nondeterministic choice;
 * the direction draws `random(FINAL_VALID + 1)` are read from a finite
 * sequence `draws`, consumed one value per draw by the rejection loop. Where
 * the source would go on drawing forever, the model stops when `draws` is
 * used up and reports `DrawsExhausted`.
 */
module Mazes {
  import opened Directions
  import opened Grid
  import opened Records
  import opened Spanning

  /** A `Cell*` into the cell arena: a slot, or NULL. */
  datatype CellPtr = Null | Ptr(slot: int)

  /**
   * What `genPath` did: `false` (no unvisited cell), `true` (a path was
   * committed), or, in the model only, ran out of direction draws.
   */
  datatype PathOutcome = NoUnvisitedCell | PathCommitted | DrawsExhausted

  /** The unvisited slots among the first `n`, in slot order: the list the scan of `getUnvisitedCell` builds. */
  function Candidates(cells: seq<Cell>, n: nat): seq<int>
    requires n <= |cells|
  {
    if n == 0 then []
    else Candidates(cells, n - 1) + (if cells[n - 1].visited then [] else [n - 1])
  }

  /** The candidate list holds exactly the unvisited slots below `n`. */
  lemma {:induction false} CandidatesExact(cells: seq<Cell>, n: nat, i: int)
    requires n <= |cells|
    ensures i in Candidates(cells, n) <==> 0 <= i < n && !cells[i].visited
  {
    if n > 0 {
      CandidatesExact(cells, n - 1, i);
    }
  }

  /** Every draw of the trace is a result of `random(FINAL_VALID + 1)`. */
  predicate DrawsInRange(draws: seq<nat>)
  {
    forall k | 0 <= k < |draws| :: draws[k] <= FINAL_VALID
  }

  /**
   * The rejection loop of the walk: draw `Direction(random(FINAL_VALID + 1))`
   * (the next value of the trace `draws`, read from position `pos`) until the
   * direction neither leaves the grid from `(x, y)` nor leads straight back.
   * It accepts the FIRST acceptable draw, after rejecting every draw before
   * it; with no acceptable draw left it reads the trace to its end.
   */
  method ChooseDirection(cols: int, rows: int, x: int, y: int, back: Direction, draws: seq<nat>, pos: nat)
    returns (dir: Direction, dirIsValid: bool, next: nat)
    requires DrawsInRange(draws) && pos <= |draws|
    ensures pos <= next <= |draws|
    ensures dirIsValid ==>
              && pos < next
              && dir == FromOrdinal(draws[next - 1])
              && dir != None && Acceptable(cols, rows, x, y, dir, back)
              && forall k | pos <= k < next - 1 :: !Acceptable(cols, rows, x, y, FromOrdinal(draws[k]), back)
    ensures !dirIsValid ==>
              && next == |draws|
              && forall k | pos <= k < |draws| :: !Acceptable(cols, rows, x, y, FromOrdinal(draws[k]), back)
  {
    next := pos;
    dirIsValid := false;
    dir := None;
    while !dirIsValid && next < |draws|
      invariant pos <= next <= |draws|
      invariant dirIsValid ==>
                  && pos < next
                  && dir == FromOrdinal(draws[next - 1])
                  && dir != None && Acceptable(cols, rows, x, y, dir, back)
      invariant forall k | pos <= k < next - (if dirIsValid then 1 else 0) ::
                  !Acceptable(cols, rows, x, y, FromOrdinal(draws[k]), back)
      decreases |draws| - next
    {
      dir := FromOrdinal(draws[next]);
      next := next + 1;
      if || (dir == North && y == 0)
         || (dir == East && x == cols - 1)
         || (dir == South && y == rows - 1)
         || (dir == West && x == 0)
         || dir == back
      {
        dirIsValid := false;
      } else {
        dirIsValid := true;
      }
    }
  }

  // ---------------------------------------------------------------------
  // Which draws a walk read

  /** Where a walk that began reading at `from` reads on after its first `k` accepted draws. */
  function Resume(from: nat, acc: seq<nat>, k: nat): nat
    requires k <= |acc|
  {
    if k == 0 then from else acc[k - 1] + 1
  }

  /** Every draw at a position in `[lo, hi)` is rejected at slot `i`, reached with `back` the way back. */
  ghost predicate Rejected(cols: int, rows: int, draws: seq<nat>, lo: nat, hi: int, i: int, back: Direction)
    requires 1 <= cols && DrawsInRange(draws) && hi <= |draws|
  {
    forall k | lo <= k < hi :: !Acceptable(cols, rows, i % cols, i / cols, FromOrdinal(draws[k]), back)
  }

  /**
   * The draws a walk read, beginning at position `from`: its last step is
   * the direction drawn at position `acc[n]`, every draw since the one
   * accepted before it (since `from`, for the first step) was rejected at
   * the cell the walk stood on, and the steps before it read their draws
   * the same way.
   */
  ghost predicate DrawTrace(cols: int, rows: int, draws: seq<nat>, from: nat,
                            acc: seq<nat>, path: seq<int>, steps: seq<Direction>)
    requires 1 <= cols && DrawsInRange(draws)
    decreases |acc|
  {
    && |acc| == |steps| && |path| == |steps| + 1
    && (acc != [] ==>
          var n := |acc| - 1;
          && DrawTrace(cols, rows, draws, from, acc[..n], path[..n + 1], steps[..n])
          && Resume(from, acc, n) <= acc[n] < |draws|
          && steps[n] == FromOrdinal(draws[acc[n]])
          && Rejected(cols, rows, draws, Resume(from, acc, n), acc[n], path[n], BackOf(steps[..n])))
  }

  /** The empty walk has read no draw. */
  lemma DrawTraceStart(cols: int, rows: int, draws: seq<nat>, from: nat, start: int)
    requires 1 <= cols && DrawsInRange(draws)
    ensures DrawTrace(cols, rows, draws, from, [], [start], [])
    ensures Resume(from, [], 0) == from
  {
  }

  /**
   * Accepting the draw at position `a`, after rejecting every draw since the
   * walk last accepted one, extends the trace by one step.
   */
  lemma DrawTraceStep(cols: int, rows: int, draws: seq<nat>, from: nat,
                      acc: seq<nat>, path: seq<int>, steps: seq<Direction>, a: nat, d: Direction, j: int)
    requires 1 <= cols && DrawsInRange(draws)
    requires DrawTrace(cols, rows, draws, from, acc, path, steps)
    requires Resume(from, acc, |acc|) <= a < |draws| && d == FromOrdinal(draws[a])
    requires Rejected(cols, rows, draws, Resume(from, acc, |acc|), a, path[|steps|], BackOf(steps))
    ensures DrawTrace(cols, rows, draws, from, acc + [a], path + [j], steps + [d])
    ensures Resume(from, acc + [a], |acc| + 1) == a + 1
  {
    var acc', path', steps' := acc + [a], path + [j], steps + [d];
    var n := |acc|;
    assert acc'[..n] == acc && path'[..n + 1] == path && steps'[..n] == steps;
    assert Resume(from, acc', n) == Resume(from, acc, n);
  }

  /**
   * In a grid of at least two rows and two columns, when every draw left is
   * rejected at a cell, the draws left never offered one of the directions
   * that cell accepts: the rejection loop stopped only for want of draws.
   */
  lemma RejectedMissesAcceptable(cols: int, rows: int, draws: seq<nat>, lo: nat, i: int, back: Direction)
    requires ValidDims(cols, rows) && 2 <= cols && 2 <= rows && Active(cols, rows, i)
    requires DrawsInRange(draws) && Rejected(cols, rows, draws, lo, |draws|, i, back)
    ensures exists d :: d != None && Acceptable(cols, rows, i % cols, i / cols, d, back) &&
                        forall k | lo <= k < |draws| :: FromOrdinal(draws[k]) != d
  {
    ActivePosition(cols, rows, i);
    AcceptableDirectionExists(cols, rows, i % cols, i / cols, back);
    var d :| d != None && Acceptable(cols, rows, i % cols, i / cols, d, back);
    forall k | lo <= k < |draws|
      ensures FromOrdinal(draws[k]) != d
    {
      assert !Acceptable(cols, rows, i % cols, i / cols, FromOrdinal(draws[k]), back);
    }
  }

  /** The record of one walk: where it began reading, the draws it accepted, its cells and its steps. */
  datatype WalkTrace = WalkTrace(from: nat, acc: seq<nat>, path: seq<int>, steps: seq<Direction>)

  /**
   * The cells and steps of a walk on the grid: every cell is on the grid,
   * each step passes the boundary test from its cell and reaches the next
   * cell, and no step goes straight back.
   */
  ghost predicate Route(cols: int, rows: int, path: seq<int>, steps: seq<Direction>)
    requires ValidDims(cols, rows)
  {
    && |path| == |steps| + 1
    && (forall k | 0 <= k <= |steps| :: Active(cols, rows, path[k]))
    && (forall k | 0 <= k < |steps| ::
          && CanStep(cols, rows, path[k], steps[k])
          && path[k + 1] == NeighborOf(cols, rows, path[k], steps[k]))
    && (forall k | 0 <= k < |steps| - 1 :: steps[k] != None && steps[k + 1] != Opposite(steps[k]))
  }

  /** `w` is a walk on the grid that read its steps from the draws as the rejection loop does. */
  ghost predicate Traced(cols: int, rows: int, draws: seq<nat>, w: WalkTrace)
    requires ValidDims(cols, rows) && DrawsInRange(draws)
  {
    && DrawTrace(cols, rows, draws, w.from, w.acc, w.path, w.steps)
    && Route(cols, rows, w.path, w.steps)
  }

  /** Where the walk `w` stopped reading when it completed. */
  function TraceEnd(w: WalkTrace): nat
  {
    Resume(w.from, w.acc, |w.acc|)
  }

  /** The walk `w` is stuck: every draw after its last accepted one is rejected at the cell it stands on. */
  ghost predicate Stuck(cols: int, rows: int, draws: seq<nat>, w: WalkTrace)
    requires ValidDims(cols, rows) && DrawsInRange(draws) && Traced(cols, rows, draws, w)
  {
    Rejected(cols, rows, draws, TraceEnd(w), |draws|, w.path[|w.steps|], BackOf(w.steps))
  }

  /** The walk `w` is stuck, and every cell it stood on is unvisited in `b`. */
  ghost predicate StuckOn(cols: int, rows: int, draws: seq<nat>, w: WalkTrace, b: seq<Cell>)
    requires ValidDims(cols, rows) && DrawsInRange(draws) && |b| == CELL_CAPACITY
  {
    && Traced(cols, rows, draws, w) && Stuck(cols, rows, draws, w)
    && forall k | 0 <= k <= |w.steps| :: !b[w.path[k]].visited
  }

  /**
   * In a grid of at least two rows and two columns, a stuck walk (how
   * `genPath` ends when the draws run out) stopped only for want of draws:
   * the cell it stands on accepts some direction, and no draw left offered it.
   */
  lemma StuckMissesAcceptable(cols: int, rows: int, draws: seq<nat>, w: WalkTrace)
    requires ValidDims(cols, rows) && 2 <= cols && 2 <= rows && DrawsInRange(draws)
    requires Traced(cols, rows, draws, w) && Stuck(cols, rows, draws, w)
    ensures var i := w.path[|w.steps|];
            exists d :: d != None && Acceptable(cols, rows, i % cols, i / cols, d, BackOf(w.steps)) &&
                        forall k | TraceEnd(w) <= k < |draws| :: FromOrdinal(draws[k]) != d
  {
    RejectedMissesAcceptable(cols, rows, draws, TraceEnd(w), w.path[|w.steps|], BackOf(w.steps));
  }

  /** Where the walks of `walks` stop reading: at 0 before the first. */
  function ChainEnd(walks: seq<WalkTrace>): nat
  {
    if walks == [] then 0 else TraceEnd(walks[|walks| - 1])
  }

  /**
   * The walks of one `genMaze`, in order, read the draws one after
   * another: the first begins reading at position 0 and each of the others
   * where the one before it stopped.
   */
  ghost predicate Chain(cols: int, rows: int, draws: seq<nat>, walks: seq<WalkTrace>)
    requires ValidDims(cols, rows) && DrawsInRange(draws)
    decreases |walks|
  {
    walks != [] ==>
      var n := |walks| - 1;
      && Chain(cols, rows, draws, walks[..n])
      && walks[n].from == ChainEnd(walks[..n])
      && Traced(cols, rows, draws, walks[n])
  }

  /**
   * What the walks of `genMaze` have read after a `genPath` answered
   * `outcome`: the chain of walks, read up to `used`; a stuck last walk
   * when the draws ran out.
   */
  ghost predicate Reading(cols: int, rows: int, draws: seq<nat>, walks: seq<WalkTrace>, used: nat,
                          outcome: PathOutcome, b: seq<Cell>)
    requires ValidDims(cols, rows) && DrawsInRange(draws) && |b| == CELL_CAPACITY
  {
    && Chain(cols, rows, draws, walks)
    && (outcome != DrawsExhausted ==> used == ChainEnd(walks))
    && (outcome == DrawsExhausted ==> used == |draws| && walks != [] && StuckOn(cols, rows, draws, walks[|walks| - 1], b))
  }

  /**
   * One more `genPath` after a committed path: its walk, if it took one,
   * began reading where the chain stopped and joins the chain.
   */
  lemma ReadingStep(cols: int, rows: int, draws: seq<nat>, walks: seq<WalkTrace>, used: nat,
                    a: seq<Cell>, outcome: PathOutcome, used': nat, w: WalkTrace, b: seq<Cell>,
                    walks': seq<WalkTrace>)
    requires ValidDims(cols, rows) && DrawsInRange(draws) && |a| == CELL_CAPACITY && |b| == CELL_CAPACITY
    requires Reading(cols, rows, draws, walks, used, PathCommitted, a)
    requires outcome == NoUnvisitedCell ==> used' == used && walks' == walks
    requires outcome != NoUnvisitedCell ==>
               && w.from == used && Traced(cols, rows, draws, w) && walks' == walks + [w]
    requires outcome == PathCommitted ==> used' == TraceEnd(w)
    requires outcome == DrawsExhausted ==> used' == |draws| && StuckOn(cols, rows, draws, w, b)
    ensures Reading(cols, rows, draws, walks', used', outcome, b)
  {
    if outcome != NoUnvisitedCell {
      ChainStep(cols, rows, draws, walks, w);
      assert walks'[|walks'| - 1] == w;
    }
  }

  /** One more walk that begins reading where the chain stops extends the chain. */
  lemma ChainStep(cols: int, rows: int, draws: seq<nat>, walks: seq<WalkTrace>, w: WalkTrace)
    requires ValidDims(cols, rows) && DrawsInRange(draws)
    requires Chain(cols, rows, draws, walks) && w.from == ChainEnd(walks) && Traced(cols, rows, draws, w)
    ensures Chain(cols, rows, draws, walks + [w]) && ChainEnd(walks + [w]) == TraceEnd(w)
  {
    assert (walks + [w])[..|walks|] == walks;
  }

  /** maze.cpp:115 as written: the scan bound scaled by the byte size of a cell, and one short. */
  function ScanBoundAsWritten(cellBytes: int, cols: int, rows: int): int
  {
    cellBytes * (cols * rows - 1)
  }

  /**
   * For a 1 by 1 maze the as-written scan looks at no slot at all, so
   * `getUnvisitedCell` returns NULL although the only cell is unvisited
   * (and `genMaze` then dereferences it); the intended scan finds slot 0.
   */
  lemma AsWrittenScanMissesOnlyCell(cells: seq<Cell>, cellBytes: int)
    requires |cells| == CELL_CAPACITY && !cells[0].visited && 1 <= cellBytes
    ensures ScanBoundAsWritten(cellBytes, 1, 1) == 0
    ensures Candidates(cells, ScanBoundAsWritten(cellBytes, 1, 1)) == []
    ensures Candidates(cells, ActiveCount(1, 1)) == [0]
  {
  }

  /**
   * For the full 15 by 15 maze the as-written bound is never the 225 active
   * slots, whatever the byte size of a cell: it skips the last slot, or it
   * runs past the end of the cell arena.
   */
  lemma AsWrittenScanBoundIsWrong(cellBytes: int)
    requires 1 <= cellBytes
    ensures cellBytes == 1 ==> ScanBoundAsWritten(cellBytes, MAX_COLS, MAX_ROWS) == ActiveCount(MAX_COLS, MAX_ROWS) - 1
    ensures 2 <= cellBytes ==> ScanBoundAsWritten(cellBytes, MAX_COLS, MAX_ROWS) > CELL_CAPACITY
  {
    if 2 <= cellBytes {
      MulMonotone(2, 224, cellBytes, 224);
    }
  }

  /**
   * For a grid of three cells or more, with cells of two bytes or more, the
   * as-written bound runs past the active slots: when it stays inside the
   * arena, the first slot off the grid is among the candidates, so
   * `getUnvisitedCell` can hand out a cell that is not part of the maze.
   */
  lemma AsWrittenScanReachesOffGrid(cells: seq<Cell>, cellBytes: int, cols: int, rows: int)
    requires |cells| == CELL_CAPACITY && ValidDims(cols, rows) && 2 <= cellBytes
    requires 3 <= ActiveCount(cols, rows) < CELL_CAPACITY && !cells[ActiveCount(cols, rows)].visited
    ensures ScanBoundAsWritten(cellBytes, cols, rows) > ActiveCount(cols, rows)
    ensures !Active(cols, rows, ActiveCount(cols, rows))
    ensures ScanBoundAsWritten(cellBytes, cols, rows) <= CELL_CAPACITY ==>
              ActiveCount(cols, rows) in Candidates(cells, ScanBoundAsWritten(cellBytes, cols, rows))
  {
    var n := ActiveCount(cols, rows);
    MulMonotone(2, n - 1, cellBytes, n - 1);
    if ScanBoundAsWritten(cellBytes, cols, rows) <= CELL_CAPACITY {
      CandidatesExact(cells, ScanBoundAsWritten(cellBytes, cols, rows), n);
    }
  }

  /**
   * A cell off the grid lies below the last row, so the rejection test of
   * maze.cpp:165-170 never stops a step south from it (it only compares
   * `posY` with `numRows - 1`), and `getCell` lands on another slot off the
   * grid, `numCols` further on: the walk runs on towards the end of the arena.
   */
  lemma OffGridSouthUnblocked(cols: int, rows: int, i: int)
    requires ValidDims(cols, rows) && ActiveCount(cols, rows) <= i
    ensures i / cols >= rows && !Blocked(cols, rows, i % cols, i / cols, South)
    ensures i % cols + (i / cols + 1) * cols == i + cols
    ensures !Active(cols, rows, i + cols)
  {
    BelowLastRow(cols, rows, i);
    assert (i / cols + 1) * cols == i / cols * cols + cols;
  }

  /** A slot at or past `cols * rows` has a row index of `rows` or more. */
  lemma BelowLastRow(cols: int, rows: int, i: int)
    requires ValidDims(cols, rows) && ActiveCount(cols, rows) <= i
    ensures i / cols >= rows
  {
    var q := i / cols;
    assert i == q * cols + i % cols;
    if q < rows {
      MulMonotone(q + 1, cols, rows, cols);
      assert false;
    }
  }

  // ---------------------------------------------------------------------
  // What the phases of generation may change in the arenas

  /** Slot `i` of the arena sits at position `(i % cols, i / cols)`. */
  ghost predicate Positioned(cols: int, cells: seq<Cell>)
    requires 1 <= cols
  {
    forall i | 0 <= i < |cells| :: cells[i].posX == i % cols && cells[i].posY == i / cols
  }

  /** Writing a record with the same position into one slot keeps the positions. */
  lemma PositionedUpdate(cols: int, cells: seq<Cell>, i: int, c: Cell)
    requires 1 <= cols && Positioned(cols, cells) && 0 <= i < |cells|
    requires c.posX == cells[i].posX && c.posY == cells[i].posY
    ensures Positioned(cols, cells[i := c])
  {
  }

  /** From `a` to `b` only pointers of unvisited cells changed, and only to real directions. */
  ghost predicate PointersOnly(a: seq<Cell>, b: seq<Cell>)
  {
    && |a| == |b|
    && forall i | 0 <= i < |a| ::
         && b[i] == a[i].(lastWalked := b[i].lastWalked)
         && (b[i].lastWalked != a[i].lastWalked ==> !a[i].visited && b[i].lastWalked != None)
  }

  lemma PointersOnlyStep(a: seq<Cell>, b: seq<Cell>, i: int, d: Direction)
    requires PointersOnly(a, b) && 0 <= i < |b| && !b[i].visited && d != None
    ensures PointersOnly(a, b[i := b[i].(lastWalked := d)])
  {
  }

  /** From `a` to `b` only unvisited cells of the walk `last` were marked visited. */
  ghost predicate MarksOnly(a: seq<Cell>, b: seq<Cell>, last: map<int, nat>)
  {
    && |a| == |b|
    && forall i | 0 <= i < |a| ::
         b[i] == a[i] || (i in last && !a[i].visited && b[i] == a[i].(visited := true))
  }

  lemma MarksOnlyStep(a: seq<Cell>, b: seq<Cell>, last: map<int, nat>, i: int)
    requires MarksOnly(a, b, last) && 0 <= i < |b| && i in last && !b[i].visited
    ensures MarksOnly(a, b[i := b[i].(visited := true)], last)
  {
  }

  /** From `a` to `b` walls were only opened. */
  ghost predicate OpensOnly(a: seq<Edge>, b: seq<Edge>)
  {
    && |a| == |b|
    && forall e | 0 <= e < |a| :: b[e] == a[e] || (a[e].isBlocking && !b[e].isBlocking)
  }

  lemma OpensOnlyStep(a: seq<Edge>, b: seq<Edge>, e: int)
    requires OpensOnly(a, b) && 0 <= e < |b| && b[e].isBlocking
    ensures OpensOnly(a, b[e := Edge(false)])
  {
  }

  /**
   * The replay of the pointers of `a` from `chain[0]`: it stood on the
   * cells of `chain`, each cell but the last unvisited in `a`, with a
   * pointer that is a real step onto the grid leading to the next cell
   * across the wall `walls[k]`.
   */
  ghost predicate ReplayPath(cols: int, rows: int, a: seq<Cell>, chain: seq<int>, walls: seq<int>)
    requires ValidDims(cols, rows) && |a| == CELL_CAPACITY
  {
    && |chain| == |walls| + 1
    && (forall k | 0 <= k < |chain| :: Active(cols, rows, chain[k]))
    && (forall k | 0 <= k < |walls| ::
          && !a[chain[k]].visited && CanStep(cols, rows, chain[k], a[chain[k]].lastWalked)
          && chain[k + 1] == NeighborOf(cols, rows, chain[k], a[chain[k]].lastWalked)
          && walls[k] == EdgeOf(cols, rows, chain[k], a[chain[k]].lastWalked))
  }

  /**
   * Cells `a` and edges `ea` became `b` and `eb` by that replay: exactly the
   * cells it left are marked visited, exactly the walls it crossed are
   * open, and nothing else changed.
   */
  ghost predicate Replayed(cols: int, rows: int, a: seq<Cell>, b: seq<Cell>, ea: seq<Edge>, eb: seq<Edge>,
                           chain: seq<int>, walls: seq<int>)
    requires ValidDims(cols, rows) && |a| == CELL_CAPACITY
  {
    && ReplayPath(cols, rows, a, chain, walls)
    && |b| == |a| && |eb| == |ea|
    && (forall i | 0 <= i < |a| :: b[i] == if i in chain[..|walls|] then a[i].(visited := true) else a[i])
    && (forall e | 0 <= e < |ea| :: eb[e] == if e in walls then Edge(false) else ea[e])
  }

  /** The cells the replay left were last visited by the walk before the cell it stands on. */
  ghost predicate ReplayOrder(last: map<int, nat>, chain: seq<int>, walls: seq<int>)
    requires |chain| == |walls| + 1
  {
    && chain[|walls|] in last
    && forall k | 0 <= k < |walls| :: chain[k] in last && last[chain[k]] < last[chain[|walls|]]
  }

  lemma ReplayBegin(cols: int, rows: int, a: seq<Cell>, ea: seq<Edge>, s: int, last: map<int, nat>)
    requires ValidDims(cols, rows) && |a| == CELL_CAPACITY && Active(cols, rows, s) && s in last
    ensures Replayed(cols, rows, a, a, ea, ea, [s], []) && ReplayOrder(last, [s], [])
  {
  }

  /** A cell the replay stands on was visited by the walk after every cell the replay left. */
  lemma ReplayFresh(last: map<int, nat>, chain: seq<int>, walls: seq<int>)
    requires |chain| == |walls| + 1 && ReplayOrder(last, chain, walls)
    ensures chain[|walls|] !in chain[..|walls|]
  {
    forall k | 0 <= k < |walls|
      ensures chain[k] != chain[|walls|]
    {
      assert last[chain[k]] < last[chain[|walls|]];
    }
  }

  /** Following the old pointer of the unvisited cell the replay stands on extends the replayed route. */
  lemma ReplayPathStep(cols: int, rows: int, a: seq<Cell>, chain: seq<int>, walls: seq<int>, cur: int,
                       chain': seq<int>, walls': seq<int>)
    requires ValidDims(cols, rows) && |a| == CELL_CAPACITY && ReplayPath(cols, rows, a, chain, walls)
    requires cur == chain[|walls|] && !a[cur].visited && CanStep(cols, rows, cur, a[cur].lastWalked)
    requires chain' == chain + [NeighborOf(cols, rows, cur, a[cur].lastWalked)]
    requires walls' == walls + [EdgeOf(cols, rows, cur, a[cur].lastWalked)]
    ensures ReplayPath(cols, rows, a, chain', walls')
  {
    var n := |walls|;
    forall k | 0 <= k < |chain'|
      ensures Active(cols, rows, chain'[k])
    {
      if k <= n {
        assert chain'[k] == chain[k];
      }
    }
    forall k | 0 <= k < |walls'|
      ensures && !a[chain'[k]].visited && CanStep(cols, rows, chain'[k], a[chain'[k]].lastWalked)
              && chain'[k + 1] == NeighborOf(cols, rows, chain'[k], a[chain'[k]].lastWalked)
              && walls'[k] == EdgeOf(cols, rows, chain'[k], a[chain'[k]].lastWalked)
    {
      assert chain'[k] == chain[k];
      if k < n {
        assert chain'[k + 1] == chain[k + 1] && walls'[k] == walls[k];
      }
    }
  }

  /** Marking the cell the replay stands on keeps exactly the cells it left marked. */
  lemma ReplayCellsStep(a: seq<Cell>, b: seq<Cell>, chain: seq<int>, walls: seq<int>, cur: int,
                        b': seq<Cell>, chain': seq<int>)
    requires |b| == |a| && |chain| == |walls| + 1 && cur == chain[|walls|] && 0 <= cur < |a|
    requires forall i | 0 <= i < |a| :: b[i] == if i in chain[..|walls|] then a[i].(visited := true) else a[i]
    requires b' == b[cur := b[cur].(visited := true)] && |chain'| == |chain| + 1 && chain'[..|chain|] == chain
    ensures forall i | 0 <= i < |a| :: b'[i] == if i in chain'[..|walls| + 1] then a[i].(visited := true) else a[i]
  {
    assert chain'[..|walls| + 1] == chain[..|walls|] + [cur];
  }

  /** Opening the wall the replay crosses keeps exactly the walls it crossed open. */
  lemma ReplayEdgesStep(ea: seq<Edge>, eb: seq<Edge>, walls: seq<int>, wall: int, eb': seq<Edge>, walls': seq<int>)
    requires |eb| == |ea| && 0 <= wall < |ea|
    requires forall e | 0 <= e < |ea| :: eb[e] == if e in walls then Edge(false) else ea[e]
    requires eb' == eb[wall := Edge(false)] && walls' == walls + [wall]
    ensures forall e | 0 <= e < |ea| :: eb'[e] == if e in walls' then Edge(false) else ea[e]
  {
  }

  /** A next cell visited later in the walk keeps the replay climbing in walk time. */
  lemma ReplayOrderStep(last: map<int, nat>, chain: seq<int>, walls: seq<int>, next: int, chain': seq<int>, walls': seq<int>)
    requires |chain| == |walls| + 1 && ReplayOrder(last, chain, walls)
    requires next in last && last[chain[|walls|]] < last[next]
    requires chain' == chain + [next] && |walls'| == |walls| + 1
    ensures ReplayOrder(last, chain', walls')
  {
    forall k | 0 <= k < |walls'|
      ensures chain'[k] in last && last[chain'[k]] < last[next]
    {
      if k < |walls| {
        assert last[chain[k]] < last[chain[|walls|]];
      }
    }
  }

  /**
   * One replay step at the unvisited `cur`, whose pointer leads to a cell
   * visited later in the walk: marking `cur` and opening its wall extends
   * the replay by one cell.
   */
  lemma ReplayStep(cols: int, rows: int, a: seq<Cell>, b: seq<Cell>, ea: seq<Edge>, eb: seq<Edge>,
                   last: map<int, nat>, chain: seq<int>, walls: seq<int>, cur: int,
                   b': seq<Cell>, eb': seq<Edge>, chain': seq<int>, walls': seq<int>)
    requires ValidDims(cols, rows) && |a| == CELL_CAPACITY && |ea| == EDGE_CAPACITY
    requires Replayed(cols, rows, a, b, ea, eb, chain, walls) && ReplayOrder(last, chain, walls)
    requires cur == chain[|walls|] && !b[cur].visited && CanStep(cols, rows, cur, b[cur].lastWalked)
    requires NeighborOf(cols, rows, cur, b[cur].lastWalked) in last
    requires last[cur] < last[NeighborOf(cols, rows, cur, b[cur].lastWalked)]
    requires b' == b[cur := b[cur].(visited := true)]
    requires eb' == eb[EdgeOf(cols, rows, cur, b[cur].lastWalked) := Edge(false)]
    requires chain' == chain + [NeighborOf(cols, rows, cur, b[cur].lastWalked)]
    requires walls' == walls + [EdgeOf(cols, rows, cur, b[cur].lastWalked)]
    ensures Replayed(cols, rows, a, b', ea, eb', chain', walls') && ReplayOrder(last, chain', walls')
  {
    ReplayFresh(last, chain, walls);
    assert b[cur] == a[cur];
    ReplayPathStep(cols, rows, a, chain, walls, cur, chain', walls');
    assert chain'[..|chain|] == chain;
    ReplayCellsStep(a, b, chain, walls, cur, b', chain');
    ReplayEdgesStep(ea, eb, walls, EdgeOf(cols, rows, cur, b[cur].lastWalked), eb', walls');
    ReplayOrderStep(last, chain, walls, NeighborOf(cols, rows, cur, b[cur].lastWalked), chain', walls');
  }

  /** When the replay reaches a cell visited in `b`, that cell was visited before the replay. */
  lemma ReplayEnd(cols: int, rows: int, a: seq<Cell>, b: seq<Cell>, ea: seq<Edge>, eb: seq<Edge>,
                  last: map<int, nat>, chain: seq<int>, walls: seq<int>)
    requires ValidDims(cols, rows) && |a| == CELL_CAPACITY
    requires Replayed(cols, rows, a, b, ea, eb, chain, walls) && ReplayOrder(last, chain, walls)
    requires b[chain[|walls|]].visited
    ensures a[chain[|walls|]].visited
  {
    var n, cur := |walls|, chain[|walls|];
    assert cur !in chain[..n] by {
      forall k | 0 <= k < n
        ensures chain[k] != cur
      {
        assert last[chain[k]] < last[cur];
      }
    }
  }

  /** The visited flags of `a` and `b` agree. */
  ghost predicate SameFlags(a: seq<Cell>, b: seq<Cell>)
  {
    |a| == |b| && forall i | 0 <= i < |a| :: a[i].visited == b[i].visited
  }

  /**
   * From `a` to `b` visited flags only rose, and entrance and exit marks and
   * positions stayed as they were.
   */
  ghost predicate Grows(a: seq<Cell>, b: seq<Cell>)
  {
    && |a| == |b|
    && forall i | 0 <= i < |a| ::
         && (a[i].visited ==> b[i].visited)
         && b[i].isEntrance == a[i].isEntrance && b[i].isExit == a[i].isExit
         && b[i].posX == a[i].posX && b[i].posY == a[i].posY
  }

  /** A walk followed by a commit lets the maze grow, and a walk alone changes no flag. */
  lemma WalkThenCommit(a: seq<Cell>, b: seq<Cell>, c: seq<Cell>, last: map<int, nat>)
    requires PointersOnly(a, b) && MarksOnly(b, c, last)
    ensures SameFlags(a, b) && Grows(a, b) && Grows(a, c)
  {
  }

  /** No cell is flagged as entrance or exit. */
  ghost predicate Unflagged(cells: seq<Cell>)
  {
    forall i | 0 <= i < |cells| :: !cells[i].isEntrance && !cells[i].isExit
  }

  lemma GrowsUnflagged(a: seq<Cell>, b: seq<Cell>)
    requires Unflagged(a) && Grows(a, b)
    ensures Unflagged(b)
  {
  }

  /**
   * The walk from `start` after `|steps|` steps, standing on `cur`: cells
   * `a` became `b` by pointer writes only, the walk took the real steps
   * `steps` through the unvisited cells `path`, never straight back, and
   * its pointers ascend in time (`WalkTrail`).
   */
  ghost predicate Walking(cols: int, rows: int, a: seq<Cell>, b: seq<Cell>, start: int,
                          last: map<int, nat>, t: nat, path: seq<int>, steps: seq<Direction>, cur: int)
    requires ValidDims(cols, rows) && |b| == CELL_CAPACITY
  {
    && PointersOnly(a, b)
    && WalkTrail(cols, rows, b, last, cur, t)
    && WalkPath(cols, rows, b, start, last, path, steps, cur)
    && LastWrites(a, b, last, t, path, steps, cur)
  }

  /**
   * The walk went from the unvisited `start` to `cur` by the real steps
   * `steps` through the unvisited cells `path`, never straight back.
   */
  ghost predicate WalkPath(cols: int, rows: int, b: seq<Cell>, start: int,
                           last: map<int, nat>, path: seq<int>, steps: seq<Direction>, cur: int)
    requires ValidDims(cols, rows) && |b| == CELL_CAPACITY
  {
    && Active(cols, rows, cur) && start in last && Active(cols, rows, start) && !b[start].visited
    && |path| == |steps| + 1 && path[0] == start && path[|steps|] == cur
    && (forall k | 0 <= k < |steps| ::
          && CanStep(cols, rows, path[k], steps[k])
          && !b[path[k]].visited
          && path[k + 1] == NeighborOf(cols, rows, path[k], steps[k]))
    && (forall k | 0 <= k < |steps| - 1 :: steps[k] != None && steps[k + 1] != Opposite(steps[k]))
  }

  /**
   * Last write wins: `t` counts the steps, the cells the walk never stood on
   * are as they were, every cell of `path` is in `last`, `last[c]` is the
   * last time the walk stood on `c`, and every cell the walk has left holds
   * the direction of the step it took on leaving `c` that last time.
   */
  ghost predicate LastWrites(a: seq<Cell>, b: seq<Cell>, last: map<int, nat>, t: nat,
                             path: seq<int>, steps: seq<Direction>, cur: int)
  {
    && |path| == |steps| + 1 && |a| == |b|
    && t == |steps|
    && (forall i | 0 <= i < |b| && i !in last :: b[i] == a[i])
    && (forall k | 0 <= k <= |steps| :: path[k] in last && k <= last[path[k]])
    && (forall c | c in last :: last[c] <= |steps| && path[last[c]] == c)
    && (forall c | c in last && c != cur :: last[c] < |steps| && 0 <= c < |b| && b[c].lastWalked == steps[last[c]])
  }

  /** One step from `cur` to `next` in `d`, written into `cur`, keeps last write wins. */
  lemma LastWritesStep(a: seq<Cell>, b: seq<Cell>, last: map<int, nat>, t: nat,
                       path: seq<int>, steps: seq<Direction>, cur: int, next: int, d: Direction)
    requires LastWrites(a, b, last, t, path, steps, cur) && 0 <= cur < |b|
    requires cur in last && last[cur] == t && path[|steps|] == cur && next != cur
    ensures LastWrites(a, b[cur := b[cur].(lastWalked := d)], last[next := t + 1], t + 1,
                       path + [next], steps + [d], next)
  {
    var b', last', path', steps' := b[cur := b[cur].(lastWalked := d)], last[next := t + 1], path + [next], steps + [d];
    forall c | c in last' && c != next
      ensures last'[c] < |steps'| && 0 <= c < |b'| && b'[c].lastWalked == steps'[last'[c]]
    {
      assert path'[last[c]] == path[last[c]];
      assert steps'[last[c]] == if last[c] < |steps| then steps[last[c]] else d;
    }
    forall c | c in last'
      ensures last'[c] <= |steps'| && path'[last'[c]] == c
    {
      if c != next {
        assert path'[last[c]] == path[last[c]];
      }
    }
    forall k | 0 <= k <= |steps'|
      ensures path'[k] in last' && k <= last'[path'[k]]
    {
      if k < |steps'| {
        assert path'[k] == path[k];
      }
    }
  }

  /** Step `k` of `path` is the last time the walk stood on `path[k]`. */
  ghost predicate LastVisit(path: seq<int>, k: int)
    requires 0 <= k < |path|
  {
    forall j | k < j < |path| :: path[j] != path[k]
  }

  /**
   * The pointers the walk `path`, `steps` left from `a` in `b`: a cell off
   * the path is unchanged, and a cell the walk left holds the step it took
   * on leaving it the last time.
   */
  ghost predicate PointersOf(a: seq<Cell>, b: seq<Cell>, path: seq<int>, steps: seq<Direction>)
  {
    && |a| == |b| && |path| == |steps| + 1
    && (forall i | 0 <= i < |a| && i !in path :: b[i] == a[i])
    && (forall k | 0 <= k < |steps| && LastVisit(path, k) ::
          0 <= path[k] < |a| && b[path[k]] == a[path[k]].(lastWalked := steps[k]))
  }

  /** What a walk standing on the visited `cur` wrote: last write wins, in terms of the path alone. */
  lemma WalkPointers(cols: int, rows: int, a: seq<Cell>, b: seq<Cell>, start: int,
                     last: map<int, nat>, t: nat, path: seq<int>, steps: seq<Direction>, cur: int)
    requires ValidDims(cols, rows) && |b| == CELL_CAPACITY
    requires Walking(cols, rows, a, b, start, last, t, path, steps, cur) && b[cur].visited
    ensures PointersOf(a, b, path, steps)
  {
    forall k | 0 <= k < |steps| && LastVisit(path, k)
      ensures 0 <= path[k] < |a| && b[path[k]] == a[path[k]].(lastWalked := steps[k])
    {
      var c := path[k];
      assert c in last && k <= last[c] && path[last[c]] == c;
      assert c != cur by {
        assert !b[path[k]].visited;
      }
    }
  }

  /**
   * A walk so far is a route on the grid from `start` to `cur`, and the
   * visited flags of its cells are as they were before it.
   */
  lemma WalkRoute(cols: int, rows: int, a: seq<Cell>, b: seq<Cell>, start: int,
                  last: map<int, nat>, t: nat, path: seq<int>, steps: seq<Direction>, cur: int)
    requires ValidDims(cols, rows) && |b| == CELL_CAPACITY
    requires Walking(cols, rows, a, b, start, last, t, path, steps, cur)
    ensures Route(cols, rows, path, steps) && path[0] == start && path[|steps|] == cur
    ensures forall k | 0 <= k <= |steps| :: a[path[k]].visited == b[path[k]].visited
    ensures forall k | 0 <= k < |steps| :: !b[path[k]].visited
  {
    forall k | 0 <= k <= |steps|
      ensures Active(cols, rows, path[k])
    {
      assert path[k] in last;
    }
  }

  /**
   * The state the walk loop keeps: the walk so far, the direction back from
   * its last step, and the draws it has read, up to `next`.
   */
  ghost predicate Striding(cols: int, rows: int, draws: seq<nat>, pos: nat, a: seq<Cell>, b: seq<Cell>, start: int,
                           last: map<int, nat>, t: nat, path: seq<int>, steps: seq<Direction>, acc: seq<nat>,
                           cur: int, back: Direction, next: nat)
    requires ValidDims(cols, rows) && |b| == CELL_CAPACITY && DrawsInRange(draws)
  {
    && Walking(cols, rows, a, b, start, last, t, path, steps, cur)
    && back == BackOf(steps)
    && pos + |steps| <= next <= |draws|
    && DrawTrace(cols, rows, draws, pos, acc, path, steps) && next == Resume(pos, acc, |acc|)
  }

  /**
   * One accepted draw at the unvisited `cur`: a real step onto the grid, not
   * straight back, taken with the draw at `accepted` after every draw since
   * `next` was rejected, keeps the state of the walk loop.
   */
  lemma StridingStep(cols: int, rows: int, draws: seq<nat>, pos: nat, a: seq<Cell>, b: seq<Cell>, start: int,
                     last: map<int, nat>, t: nat, path: seq<int>, steps: seq<Direction>, acc: seq<nat>,
                     cur: int, back: Direction, next: nat, dir: Direction, accepted: nat,
                     b': seq<Cell>, last': map<int, nat>, t': nat, path': seq<int>, steps': seq<Direction>,
                     acc': seq<nat>, cur': int, back': Direction, next': nat)
    requires ValidDims(cols, rows) && |b| == CELL_CAPACITY && DrawsInRange(draws)
    requires Striding(cols, rows, draws, pos, a, b, start, last, t, path, steps, acc, cur, back, next)
    requires !b[cur].visited && CanStep(cols, rows, cur, dir) && dir != back
    requires next <= accepted < |draws| && dir == FromOrdinal(draws[accepted])
    requires Rejected(cols, rows, draws, next, accepted, cur, back)
    requires b' == b[cur := b[cur].(lastWalked := dir)] && cur' == NeighborOf(cols, rows, cur, dir)
    requires last' == last[cur' := t + 1] && t' == t + 1
    requires path' == path + [cur'] && steps' == steps + [dir] && acc' == acc + [accepted]
    requires back' == Opposite(dir) && next' == accepted + 1
    ensures Striding(cols, rows, draws, pos, a, b', start, last', t', path', steps', acc', cur', back', next')
  {
    var j := cur';
    assert path[|steps|] == cur;
    DrawTraceStep(cols, rows, draws, pos, acc, path, steps, accepted, dir, j);
    WalkAdvance(cols, rows, a, b, start, last, t, path, steps, cur, dir);
  }

  /** The direction straight back after taking `steps`: none before the first step. */
  function BackOf(steps: seq<Direction>): (back: Direction)
    ensures steps != [] && steps[|steps| - 1] != None ==> back == Opposite(steps[|steps| - 1])
    ensures steps == [] ==> back == None
  {
    if steps == [] || steps[|steps| - 1] == None then None else Opposite(steps[|steps| - 1])
  }

  lemma WalkBegin(cols: int, rows: int, cells: seq<Cell>, start: int)
    requires ValidDims(cols, rows) && |cells| == CELL_CAPACITY
    requires Active(cols, rows, start) && !cells[start].visited
    ensures Walking(cols, rows, cells, cells, start, map[start := 0], 0, [start], [], start)
  {
    WalkStart(cols, rows, cells, start);
  }

  /** One accepted step of the walk from the unvisited `cur`, not straight back, keeps the walk's state. */
  lemma WalkAdvance(cols: int, rows: int, a: seq<Cell>, b: seq<Cell>, start: int,
                    last: map<int, nat>, t: nat, path: seq<int>, steps: seq<Direction>, cur: int, d: Direction)
    requires ValidDims(cols, rows) && |b| == CELL_CAPACITY
    requires Walking(cols, rows, a, b, start, last, t, path, steps, cur)
    requires !b[cur].visited && CanStep(cols, rows, cur, d)
    requires d != BackOf(steps)
    ensures Walking(cols, rows, a, b[cur := b[cur].(lastWalked := d)], start,
                    last[NeighborOf(cols, rows, cur, d) := t + 1], t + 1,
                    path + [NeighborOf(cols, rows, cur, d)], steps + [d], NeighborOf(cols, rows, cur, d))
  {
    var next := NeighborOf(cols, rows, cur, d);
    var b' := b[cur := b[cur].(lastWalked := d)];
    WalkStep(cols, rows, b, last, cur, t, d);
    PointersOnlyStep(a, b, cur, d);
    LastWritesStep(a, b, last, t, path, steps, cur, next, d);
    var path', steps' := path + [next], steps + [d];
    forall k | 0 <= k < |steps'|
      ensures && CanStep(cols, rows, path'[k], steps'[k])
              && !b'[path'[k]].visited
              && path'[k + 1] == NeighborOf(cols, rows, path'[k], steps'[k])
    {
      if k < |steps| {
        assert path'[k] == path[k] && steps'[k] == steps[k] && path'[k + 1] == path[k + 1];
      }
    }
    forall k | 0 <= k < |steps'| - 1
      ensures steps'[k] != None && steps'[k + 1] != Opposite(steps'[k])
    {
      assert steps'[k] == steps[k];
      assert CanStep(cols, rows, path[k], steps[k]);
    }
  }

  /**
   * The state the commit loop keeps, from cells `a` and edges `ea` at its
   * start: the replay invariant of the tree (`CommitInv`), the replay so
   * far from `start` to `cur` with exactly its cells marked and its walls
   * opened, and, after the first step, a larger visited count.
   */
  ghost predicate Committing(cols: int, rows: int, a: seq<Cell>, b: seq<Cell>, ea: seq<Edge>, eb: seq<Edge>,
                             root: int, rank: seq<int>, maxRank: int, last: map<int, nat>, hit: int, t: nat,
                             base: int, start: int, cur: int, prev: int, chain: seq<int>, walls: seq<int>)
    requires ValidDims(cols, rows) && |a| == CELL_CAPACITY && |b| == CELL_CAPACITY && |ea| == EDGE_CAPACITY
  {
    && CommitInv(cols, rows, b, eb, root, rank, maxRank, last, hit, t, base, cur, prev)
    && Active(cols, rows, start)
    && (prev == -1 ==> cur == start && b == a)
    && (prev != -1 ==>
          b[start].visited && VisitedCount(b, ActiveCount(cols, rows)) > VisitedCount(a, ActiveCount(cols, rows)))
    && MarksOnly(a, b, last) && OpensOnly(ea, eb)
    && Replayed(cols, rows, a, b, ea, eb, chain, walls) && ReplayOrder(last, chain, walls)
    && chain[0] == start && chain[|walls|] == cur
  }

  /** One step of the commit loop at the unvisited `cur` keeps its state. */
  lemma CommittingStep(cols: int, rows: int, a: seq<Cell>, b: seq<Cell>, ea: seq<Edge>, eb: seq<Edge>,
                       root: int, rank: seq<int>, maxRank: int, last: map<int, nat>, hit: int, t: nat,
                       base: int, start: int, cur: int, prev: int, chain: seq<int>, walls: seq<int>,
                       b': seq<Cell>, eb': seq<Edge>, cur': int, chain': seq<int>, walls': seq<int>)
    requires ValidDims(cols, rows) && |a| == CELL_CAPACITY && |b| == CELL_CAPACITY && |ea| == EDGE_CAPACITY
    requires Committing(cols, rows, a, b, ea, eb, root, rank, maxRank, last, hit, t, base, start, cur, prev, chain, walls)
    requires !b[cur].visited && CanStep(cols, rows, cur, b[cur].lastWalked)
    requires b' == b[cur := b[cur].(visited := true)]
    requires eb' == eb[EdgeOf(cols, rows, cur, b[cur].lastWalked) := Edge(false)]
    requires cur' == NeighborOf(cols, rows, cur, b[cur].lastWalked)
    requires chain' == chain + [cur'] && walls' == walls + [EdgeOf(cols, rows, cur, b[cur].lastWalked)]
    ensures |b'| == CELL_CAPACITY
    ensures Committing(cols, rows, a, b', ea, eb', root, rank, maxRank, last, hit, t, base, start, cur', cur, chain', walls')
  {
    CommitStep(cols, rows, b, eb, root, rank, maxRank, last, hit, t, base, cur, prev);
    MarksOnlyStep(a, b, last, cur);
    OpensOnlyStep(ea, eb, EdgeOf(cols, rows, cur, b[cur].lastWalked));
    ReplayStep(cols, rows, a, b, ea, eb, last, chain, walls, cur, b', eb', chain', walls');
  }

  /** Pointer writes at unvisited cells keep the tree invariant and the positions. */
  lemma PointersOnlyKeepsTree(cols: int, rows: int, a: seq<Cell>, b: seq<Cell>, edges: seq<Edge>,
                              root: int, rank: seq<int>, maxRank: int)
    requires TreeInv(cols, rows, a, edges, root, rank, maxRank) && PointersOnly(a, b)
    requires Positioned(cols, a)
    ensures TreeInv(cols, rows, b, edges, root, rank, maxRank) && Positioned(cols, b)
  {
    TreeInvSkeleton(cols, rows, a, b, edges, root, rank, maxRank);
  }

  /**
   * The switch of the walk in `genPath`: from slot `i` at position `(x, y)`
   * step to the neighbour in `dir`, and remember the direction leading back.
   */
  method MoveThrough(cols: int, rows: int, i: int, x: int, y: int, dir: Direction)
    returns (cell: int, back: Direction)
    requires ValidDims(cols, rows) && Active(cols, rows, i)
    requires x == i % cols && y == i / cols
    requires CanStep(cols, rows, i, dir)
    ensures cell == NeighborOf(cols, rows, i, dir)
    ensures back == Opposite(dir)
    ensures CanStep(cols, rows, cell, back) && NeighborOf(cols, rows, cell, back) == i
  {
    ActivePosition(cols, rows, i);
    StepBack(cols, rows, i, dir);
    match dir {
      case North =>
        cell, back := CellIndex(cols, rows, x, y - 1), South;
      case East =>
        cell, back := CellIndex(cols, rows, x + 1, y), West;
      case South =>
        cell, back := CellIndex(cols, rows, x, y + 1), North;
      case West =>
        cell, back := CellIndex(cols, rows, x - 1, y), East;
    }
  }

  /** `class Maze`: the arenas, sized once for the largest maze, and the current dimensions. */
  class Maze {
    const numCols: int
    const numRows: int
    const cells: array<Cell>
    const edges: array<Edge>

    // The proof's view of generation: the seed cell, and a rank per cell
    // that falls along the `lastWalked` pointers of visited cells.
    ghost var root: int
    ghost var rank: seq<int>
    ghost var maxRank: int


    /** The arenas have their fixed sizes and slot `i` sits at position `(i % numCols, i / numCols)`. */
    ghost predicate Valid()
      reads cells
    {
      && ValidDims(numCols, numRows)
      && cells.Length == CELL_CAPACITY && edges.Length == EDGE_CAPACITY
      && Positioned(numCols, cells[..])
    }

    /** Generation has been seeded and keeps the tree invariant. */
    ghost predicate Growing()
      requires Valid()
      reads this, cells, edges
    {
      TreeInv(numCols, numRows, cells[..], edges[..], root, rank, maxRank)
    }

    /** Every cell and edge as its member initialisers leave it. */
    ghost predicate Pristine()
      requires Valid()
      reads cells, edges
    {
      && (forall i | 0 <= i < CELL_CAPACITY ::
            !cells[i].visited && cells[i].lastWalked == None && !cells[i].isEntrance && !cells[i].isExit)
      && (forall e | 0 <= e < EDGE_CAPACITY :: edges[e] == NEW_EDGE)
    }

    /**
     * `Maze(tft, numCols, numRows)`: every cell of the arena starts fresh at
     * the position derived from its slot, every edge starts blocking.
     */
    constructor (numCols: int, numRows: int)
      requires ValidDims(numCols, numRows)
      ensures this.numCols == numCols && this.numRows == numRows
      ensures Valid() && Pristine()
      ensures forall i | 0 <= i < CELL_CAPACITY :: cells[i] == NewCell(i % numCols, i / numCols)
      ensures fresh(cells) && fresh(edges)
    {
      this.numCols := numCols;
      this.numRows := numRows;
      cells := new Cell[CELL_CAPACITY](_ => NewCell(0, 0));
      edges := new Edge[EDGE_CAPACITY](_ => NEW_EDGE);
      new;
      for i := 0 to CELL_CAPACITY
        modifies cells
        invariant forall k | 0 <= k < i :: cells[k] == NewCell(k % numCols, k / numCols)
        invariant forall k | i <= k < CELL_CAPACITY :: cells[k] == NewCell(0, 0)
      {
        cells[i] := cells[i].(posX := i % numCols, posY := i / numCols);
      }
    }

    /**
     * `getUnvisitedCell`: some unvisited cell of the current grid, or NULL
     * exactly when every cell of the current grid is visited.
     */
    method GetUnvisitedCell() returns (r: CellPtr)
      requires Valid()
      ensures r.Null? <==> Candidates(cells[..], ActiveCount(numCols, numRows)) == []
      ensures r.Ptr? ==> r.slot in Candidates(cells[..], ActiveCount(numCols, numRows))
      ensures r.Null? <==> forall i | Active(numCols, numRows, i) :: cells[i].visited
      ensures r.Ptr? ==> Active(numCols, numRows, r.slot) && !cells[r.slot].visited
    {
      var n := ActiveCount(numCols, numRows);
      var numUnvisited := 0;
      var unvisitedCells: seq<int> := [];
      for i := 0 to n
        invariant unvisitedCells == Candidates(cells[..], i)
        invariant numUnvisited == |unvisitedCells|
      {
        if !cells[i].visited {
          unvisitedCells := unvisitedCells + [i];
          numUnvisited := numUnvisited + 1;
        }
      }
      if numUnvisited == 0 {
        r := Null;
        forall i | Active(numCols, numRows, i)
          ensures cells[i].visited
        {
          CandidatesExact(cells[..], n, i);
        }
      } else {
        var pick :| 0 <= pick < |unvisitedCells|;
        r := Ptr(unvisitedCells[pick]);
        CandidatesExact(cells[..], n, r.slot);
      }
    }

    /**
     * The walk phase of `genPath`: from `pathStart`, step in accepted
     * directions, recording each in the cell it leaves, until standing on a
     * visited cell. Only the pointers of the cells it stood on change, all
     * of them unvisited, and each holds the direction taken at its last
     * visit (`last`); every step is a real step onto the grid, never
     * straight back, and the walk stops at the first visited cell it reaches.
     * Reading the draws from `pos`, each step is the draw at `acc[k]`, every
     * draw between two accepted ones was rejected where the walk stood, and
     * when the walk stops early it is because every draw left was rejected.
     */
    method Walk(pathStart: int, draws: seq<nat>, pos: nat)
      returns (hit: int, finished: bool, next: nat,
               ghost last: map<int, nat>, ghost t: nat, ghost path: seq<int>, ghost steps: seq<Direction>,
               ghost acc: seq<nat>)
      requires Valid()
      requires Active(numCols, numRows, pathStart) && !cells[pathStart].visited
      requires DrawsInRange(draws) && pos <= |draws|
      modifies cells
      ensures Walking(numCols, numRows, old(cells[..]), cells[..], pathStart, last, t, path, steps, hit)
      ensures DrawTrace(numCols, numRows, draws, pos, acc, path, steps)
      ensures pos <= next <= |draws|
      ensures finished ==> pos < next && next == Resume(pos, acc, |acc|) && cells[hit].visited
      ensures !finished ==> next == |draws| && !cells[hit].visited
      ensures !finished ==> Rejected(numCols, numRows, draws, Resume(pos, acc, |acc|), |draws|, hit, BackOf(steps))
    {
      var currentCell := pathStart;
      var dirBackToLastCell := None;
      next, finished := pos, true;
      last, t, path, steps, acc := map[pathStart := 0], 0, [pathStart], [], [];
      DrawTraceStart(numCols, numRows, draws, pos, pathStart);
      ghost var initial := cells[..];
      WalkBegin(numCols, numRows, initial, pathStart);
      while !cells[currentCell].visited
        invariant Valid() && initial == old(cells[..])
        invariant Striding(numCols, numRows, draws, pos, initial, cells[..], pathStart,
                           last, t, path, steps, acc, currentCell, dirBackToLastCell, next)
        decreases |draws| - next
      {
        var dirIsValid, cell, back, after;
        ghost var last', t', path', steps', acc';
        dirIsValid, cell, back, after, last', t', path', steps', acc' :=
          WalkOn(currentCell, dirBackToLastCell, draws, next, pos, pathStart, initial, last, t, path, steps, acc);
        if !dirIsValid {
          hit, finished, next := currentCell, false, after;
          return;
        }
        currentCell, dirBackToLastCell, next := cell, back, after;
        last, t, path, steps, acc := last', t', path', steps', acc';
      }
      assert currentCell != pathStart;
      hit := currentCell;
    }

    /**
     * One pass of the walk loop at the unvisited `currentCell`: run the
     * rejection loop at the cell's position; on an accepted direction,
     * record it in the cell and move to the neighbour, which extends the
     * walk and its draw trace by one step. With no direction accepted,
     * nothing changes and every draw left was rejected here.
     */
    method WalkOn(currentCell: int, dirBackToLastCell: Direction, draws: seq<nat>, next: nat,
                  ghost pos: nat, ghost pathStart: int, ghost initial: seq<Cell>, ghost last: map<int, nat>,
                  ghost t: nat, ghost path: seq<int>, ghost steps: seq<Direction>, ghost acc: seq<nat>)
      returns (dirIsValid: bool, cell: int, back: Direction, after: nat,
               ghost last': map<int, nat>, ghost t': nat, ghost path': seq<int>, ghost steps': seq<Direction>,
               ghost acc': seq<nat>)
      requires Valid() && DrawsInRange(draws)
      requires Striding(numCols, numRows, draws, pos, initial, cells[..], pathStart,
                        last, t, path, steps, acc, currentCell, dirBackToLastCell, next)
      requires !cells[currentCell].visited
      modifies cells
      ensures Valid()
      ensures !dirIsValid ==>
                && cells[..] == old(cells[..]) && after == |draws|
                && Rejected(numCols, numRows, draws, next, |draws|, currentCell, dirBackToLastCell)
      ensures dirIsValid ==>
                && next < after
                && Striding(numCols, numRows, draws, pos, initial, cells[..], pathStart,
                            last', t', path', steps', acc', cell, back, after)
      ensures dirIsValid ==>
                && |steps'| == |steps| + 1 && steps' == steps + [steps'[|steps|]]
                && path' == path + [cell] && acc' == acc + [after - 1]
                && last' == last[cell := t + 1] && t' == t + 1 && back == Opposite(steps'[|steps|])
                && cells[..] == old(cells[..])[currentCell := old(cells[currentCell]).(lastWalked := steps'[|steps|])]
    {
      ActivePosition(numCols, numRows, currentCell);
      var x, y := cells[currentCell].posX, cells[currentCell].posY;
      assert x == currentCell % numCols && y == currentCell / numCols;
      var dir;
      dir, dirIsValid, after := ChooseDirection(numCols, numRows, x, y, dirBackToLastCell, draws, next);
      if !dirIsValid {
        cell, back := currentCell, dirBackToLastCell;
        last', t', path', steps', acc' := last, t, path, steps, acc;
        return;
      }
      ghost var now := cells[..];
      ghost var nextCell := NeighborOf(numCols, numRows, currentCell, dir);
      ghost var accepted: nat := after - 1;
      acc', path', steps' := acc + [accepted], path + [nextCell], steps + [dir];
      last', t' := last[nextCell := t + 1], t + 1;
      cell, back := WalkCell(currentCell, dir);
      StridingStep(numCols, numRows, draws, pos, initial, now, pathStart, last, t, path, steps, acc,
                   currentCell, dirBackToLastCell, next, dir, accepted,
                   cells[..], last', t', path', steps', acc', cell, back, after);
    }

    /**
     * One step of the walk phase from `currentCell` in the accepted `dir`:
     * record `dir` as the cell's `lastWalked` and move to the neighbour,
     * remembering the direction leading back.
     */
    method WalkCell(currentCell: int, dir: Direction) returns (next: int, back: Direction)
      requires Valid() && Active(numCols, numRows, currentCell)
      requires CanStep(numCols, numRows, currentCell, dir)
      modifies cells
      ensures Valid()
      ensures cells[..] == old(cells[..])[currentCell := old(cells[currentCell]).(lastWalked := dir)]
      ensures next == NeighborOf(numCols, numRows, currentCell, dir) && back == Opposite(dir)
    {
      ActivePosition(numCols, numRows, currentCell);
      var x, y := cells[currentCell].posX, cells[currentCell].posY;
      assert x == currentCell % numCols && y == currentCell / numCols;
      PositionedUpdate(numCols, cells[..], currentCell, cells[currentCell].(lastWalked := dir));
      cells[currentCell] := cells[currentCell].(lastWalked := dir);
      next, back := MoveThrough(numCols, numRows, currentCell, x, y, dir);
    }

    /**
     * One step of the commit phase at `currentCell`: mark it visited, open
     * the wall in its `lastWalked` direction, and move through that wall.
     */
    method CommitCell(currentCell: int) returns (next: int)
      requires Valid() && 0 <= currentCell < cells.Length
      requires CanStep(numCols, numRows, currentCell, cells[currentCell].lastWalked)
      modifies cells, edges
      ensures Valid()
      ensures cells[..] == old(cells[..])[currentCell := old(cells[currentCell]).(visited := true)]
      ensures edges[..] ==
              old(edges[..])[EdgeOf(numCols, numRows, currentCell, old(cells[currentCell].lastWalked)) := Edge(false)]
      ensures next == NeighborOf(numCols, numRows, currentCell, old(cells[currentCell].lastWalked))
    {
      ActivePosition(numCols, numRows, currentCell);
      var x, y := cells[currentCell].posX, cells[currentCell].posY;
      assert x == currentCell % numCols && y == currentCell / numCols;
      PositionedUpdate(numCols, cells[..], currentCell, cells[currentCell].(visited := true));
      cells[currentCell] := cells[currentCell].(visited := true);
      var dir := cells[currentCell].lastWalked;
      var e := CellEdge(numCols, numRows, x, y, dir);
      edges[e] := edges[e].(isBlocking := false);
      match dir {
        case North =>
          next := CellIndex(numCols, numRows, x, y - 1);
        case East =>
          next := CellIndex(numCols, numRows, x + 1, y);
        case South =>
          next := CellIndex(numCols, numRows, x, y + 1);
        case West =>
          next := CellIndex(numCols, numRows, x - 1, y);
      }
    }

    /**
     * The commit phase of `genPath`: replay the pointers from `pathStart`,
     * marking each cell visited and opening the wall in its `lastWalked`
     * direction, until a visited cell is reached. The replay ends because
     * each pointer leads to a cell visited later in the walk.
     */
    method Commit(pathStart: int, ghost hit: int, ghost last: map<int, nat>, ghost t: nat)
      returns (ghost chain: seq<int>, ghost walls: seq<int>)
      requires Valid() && Growing()
      requires Active(numCols, numRows, pathStart) && !cells[pathStart].visited && pathStart in last
      requires WalkTrail(numCols, numRows, cells[..], last, hit, t) && cells[hit].visited
      modifies this, cells, edges
      ensures Valid() && Growing() && root == old(root)
      ensures cells[pathStart].visited
      ensures VisitedCount(cells[..], ActiveCount(numCols, numRows)) >
              old(VisitedCount(cells[..], ActiveCount(numCols, numRows)))
      ensures MarksOnly(old(cells[..]), cells[..], last)
      ensures OpensOnly(old(edges[..]), edges[..])
      ensures Replayed(numCols, numRows, old(cells[..]), cells[..], old(edges[..]), edges[..], chain, walls)
      ensures chain[0] == pathStart && old(cells[..])[chain[|walls|]].visited
    {
      ghost var base := maxRank + 1;
      CommitStart(numCols, numRows, cells[..], edges[..], root, rank, maxRank, last, hit, t, pathStart);
      rank := Rerank(rank, last, hit, t, base);
      maxRank := base + t;
      var currentCell := pathStart;
      ghost var prev := -1;
      chain, walls := [pathStart], [];
      ReplayBegin(numCols, numRows, cells[..], edges[..], pathStart, last);
      while !cells[currentCell].visited
        invariant Valid() && root == old(root)
        invariant Committing(numCols, numRows, old(cells[..]), cells[..], old(edges[..]), edges[..],
                             root, rank, maxRank, last, hit, t, base, pathStart, currentCell, prev, chain, walls)
        decreases t - last[currentCell]
      {
        ghost var cellsBefore, edgesBefore, prevBefore := cells[..], edges[..], prev;
        CommitStep(numCols, numRows, cellsBefore, edgesBefore, root, rank, maxRank,
                   last, hit, t, base, currentCell, prev);
        ghost var wall := EdgeOf(numCols, numRows, currentCell, cellsBefore[currentCell].lastWalked);
        prev := currentCell;
        currentCell := CommitCell(currentCell);
        ghost var chain', walls' := chain + [currentCell], walls + [wall];
        CommittingStep(numCols, numRows, old(cells[..]), cellsBefore, old(edges[..]), edgesBefore,
                       root, rank, maxRank, last, hit, t, base, pathStart, prev, prevBefore, chain, walls,
                       cells[..], edges[..], currentCell, chain', walls');
        chain, walls := chain', walls';
      }
      CommitEnd(numCols, numRows, cells[..], edges[..], root, rank, maxRank,
                last, hit, t, base, currentCell, prev);
      ReplayEnd(numCols, numRows, old(cells[..]), cells[..], old(edges[..]), edges[..], last, chain, walls);
    }

    /**
     * `genPath`: pick an unvisited cell, walk from it to the visited part of
     * the maze, and commit the loop-free path the pointers describe. It
     * answers `NoUnvisitedCell` exactly when every cell was visited; a
     * committed path visits at least one more cell. `w` records the walk
     * and the draws it read; `DrawsExhausted` means that walk is stuck.
     */
    method GenPath(draws: seq<nat>, pos: nat)
      returns (outcome: PathOutcome, next: nat, ghost w: WalkTrace,
               ghost walked: seq<Cell>, ghost chain: seq<int>, ghost walls: seq<int>)
      requires Valid() && Growing()
      requires DrawsInRange(draws) && pos <= |draws|
      modifies this, cells, edges
      ensures Valid() && Growing() && root == old(root)
      ensures pos <= next <= |draws|
      ensures outcome == NoUnvisitedCell <==> old(forall i | Active(numCols, numRows, i) :: cells[i].visited)
      ensures outcome == NoUnvisitedCell ==>
                next == pos && cells[..] == old(cells[..]) && edges[..] == old(edges[..])
      ensures outcome == PathCommitted ==>
                && pos < next
                && VisitedCount(cells[..], ActiveCount(numCols, numRows)) >
                   old(VisitedCount(cells[..], ActiveCount(numCols, numRows)))
      ensures outcome != NoUnvisitedCell ==>
                && w.from == pos && Traced(numCols, numRows, draws, w)
                && !old(cells[..])[w.path[0]].visited
                && forall k | 0 <= k < |w.steps| :: !old(cells[..])[w.path[k]].visited
      ensures outcome == PathCommitted ==>
                next == TraceEnd(w) && w.steps != [] && old(cells[..])[w.path[|w.steps|]].visited
      ensures outcome == PathCommitted ==>
                && PointersOnly(old(cells[..]), walked) && PointersOf(old(cells[..]), walked, w.path, w.steps)
                && Replayed(numCols, numRows, walked, cells[..], old(edges[..]), edges[..], chain, walls)
                && chain[0] == w.path[0] && walked[chain[|walls|]].visited
      ensures outcome == DrawsExhausted ==> next == |draws| && StuckOn(numCols, numRows, draws, w, cells[..])
      ensures outcome != PathCommitted ==> SameFlags(old(cells[..]), cells[..]) && edges[..] == old(edges[..])
      ensures Grows(old(cells[..]), cells[..]) && OpensOnly(old(edges[..]), edges[..])
    {
      var pathStart := GetUnvisitedCell();
      if pathStart.Null? {
        return NoUnvisitedCell, pos, WalkTrace(pos, [], [], []), cells[..], [], [];
      }
      ghost var cells0 := cells[..];
      var hit, finished;
      ghost var last, t, path, steps, acc;
      hit, finished, next, last, t, path, steps, acc := Walk(pathStart.slot, draws, pos);
      PointersOnlyKeepsTree(numCols, numRows, cells0, cells[..], edges[..], root, rank, maxRank);
      WalkRoute(numCols, numRows, cells0, cells[..], pathStart.slot, last, t, path, steps, hit);
      w, walked := WalkTrace(pos, acc, path, steps), cells[..];
      if !finished {
        WalkThenCommit(cells0, cells[..], cells[..], map[]);
        outcome, chain, walls := DrawsExhausted, [], [];
        return;
      }
      ghost var cells1 := cells[..];
      WalkPointers(numCols, numRows, cells0, cells[..], pathStart.slot, last, t, path, steps, hit);
      chain, walls := Commit(pathStart.slot, hit, last, t);
      WalkThenCommit(cells0, cells1, cells[..], last);
      outcome := PathCommitted;
    }

    /**
     * The start of `genMaze`: mark one unvisited cell of a fresh maze
     * visited; it is the seed (`root`) of the tree the paths grow.
     */
    method Seed()
      requires Valid() && Pristine()
      modifies this, cells
      ensures Valid() && Growing() && Unflagged(cells[..])
      ensures Active(numCols, numRows, root) && !old(cells[..])[root].visited
      ensures cells[..] == old(cells[..])[root := old(cells[..])[root].(visited := true)]
    {
      var seed := GetUnvisitedCell();
      assert !cells[0].visited;
      var s := seed.slot;
      ghost var before := cells[..];
      SeedTree(numCols, numRows, before, edges[..], s);
      PositionedUpdate(numCols, before, s, before[s].(visited := true));
      cells[s] := cells[s].(visited := true);
      assert cells[..] == before[s := before[s].(visited := true)];
      root, rank, maxRank := s, seq(CELL_CAPACITY, _ => 0), 0;
    }

    /**
     * The end of `genMaze`: flag the cell at (0, 0) as the entrance and the
     * cell at (numCols - 1, numRows - 1) as the exit, changing nothing the
     * generator reads.
     */
    method MarkEnds()
      requires Valid() && Growing() && Unflagged(cells[..])
      modifies cells
      ensures Valid() && Growing()
      ensures forall i | 0 <= i < CELL_CAPACITY ::
                && cells[i].visited == old(cells[i].visited)
                && cells[i].lastWalked == old(cells[i].lastWalked)
      ensures forall i | 0 <= i < CELL_CAPACITY ::
                cells[i].isEntrance <==> i == CellIndex(numCols, numRows, 0, 0)
      ensures forall i | 0 <= i < CELL_CAPACITY ::
                cells[i].isExit <==> i == CellIndex(numCols, numRows, numCols - 1, numRows - 1)
    {
      ghost var before := cells[..];
      var entrance := CellIndex(numCols, numRows, 0, 0);
      PositionedUpdate(numCols, cells[..], entrance, cells[entrance].(isEntrance := true));
      cells[entrance] := cells[entrance].(isEntrance := true);
      var exit := CellIndex(numCols, numRows, numCols - 1, numRows - 1);
      PositionedUpdate(numCols, cells[..], exit, cells[exit].(isExit := true));
      cells[exit] := cells[exit].(isExit := true);
      TreeInvSkeleton(numCols, numRows, before, cells[..], edges[..], root, rank, maxRank);
    }

    /**
     * The loop of `genMaze`: run `genPath` until it adds no path. It stops
     * with every cell visited, or with the draws used up by a walk stuck on
     * an unvisited cell; the walks read the draws one after another.
     */
    method GenPaths(draws: seq<nat>) returns (complete: bool, used: nat, ghost walks: seq<WalkTrace>)
      requires Valid() && Growing() && Unflagged(cells[..])
      requires DrawsInRange(draws)
      modifies this, cells, edges
      ensures Valid() && Growing() && Unflagged(cells[..])
      ensures complete ==> forall i | Active(numCols, numRows, i) :: cells[i].visited
      ensures used <= |draws| && Chain(numCols, numRows, draws, walks)
      ensures complete ==> used == ChainEnd(walks)
      ensures !complete ==>
                used == |draws| && walks != [] && StuckOn(numCols, numRows, draws, walks[|walks| - 1], cells[..])
    {
      var n := ActiveCount(numCols, numRows);
      var outcome := PathCommitted;
      used, walks := 0, [];
      while outcome == PathCommitted
        invariant Valid() && Growing()
        invariant used <= |draws|
        invariant Unflagged(cells[..])
        invariant outcome == NoUnvisitedCell ==> forall i | Active(numCols, numRows, i) :: cells[i].visited
        invariant Reading(numCols, numRows, draws, walks, used, outcome, cells[..])
        decreases n - VisitedCount(cells[..], n), if outcome == PathCommitted then 1 else 0
      {
        outcome, used, walks := NextPath(draws, used, walks);
      }
      complete := outcome == NoUnvisitedCell;
    }

    /**
     * One test of the loop condition of `genMaze`: run `genPath` once, after
     * the paths so far, and add its walk, if it took one, to the walks read.
     */
    method NextPath(draws: seq<nat>, used: nat, ghost walks: seq<WalkTrace>)
      returns (outcome: PathOutcome, used': nat, ghost walks': seq<WalkTrace>)
      requires Valid() && Growing() && Unflagged(cells[..])
      requires DrawsInRange(draws) && used <= |draws|
      requires Reading(numCols, numRows, draws, walks, used, PathCommitted, cells[..])
      modifies this, cells, edges
      ensures Valid() && Growing() && Unflagged(cells[..]) && used' <= |draws|
      ensures outcome == NoUnvisitedCell ==> forall i | Active(numCols, numRows, i) :: cells[i].visited
      ensures outcome == PathCommitted ==>
                VisitedCount(cells[..], ActiveCount(numCols, numRows)) >
                old(VisitedCount(cells[..], ActiveCount(numCols, numRows)))
      ensures outcome != PathCommitted ==>
                VisitedCount(cells[..], ActiveCount(numCols, numRows)) ==
                old(VisitedCount(cells[..], ActiveCount(numCols, numRows)))
      ensures Reading(numCols, numRows, draws, walks', used', outcome, cells[..])
    {
      ghost var before := cells[..];
      ghost var w, walked, chain, walls;
      outcome, used', w, walked, chain, walls := GenPath(draws, used);
      GrowsUnflagged(before, cells[..]);
      if outcome != PathCommitted {
        VisitedCountSameFlags(before, cells[..], ActiveCount(numCols, numRows));
      }
      walks' := if outcome == NoUnvisitedCell then walks else walks + [w];
      ReadingStep(numCols, numRows, draws, walks, used, before, outcome, used', w, cells[..], walks');
    }

    /**
     * `genMaze`: seed one cell, add paths until `genPath` finds no
     * unvisited cell, then flag the entrance at (0, 0) and the exit at
     * (numCols - 1, numRows - 1). When generation completes, every cell of
     * the grid is visited, the open walls number one less than the cells,
     * and every cell can be reached from the entrance over open walls.
     * Otherwise the walks read all of the draws, and the last of them is
     * stuck on an unvisited cell where it rejected every draw left.
     */
    method GenMaze(draws: seq<nat>) returns (complete: bool, used: nat, ghost walks: seq<WalkTrace>)
      requires Valid() && Pristine()
      requires DrawsInRange(draws)
      modifies this, cells, edges
      ensures Valid() && Growing()
      ensures forall i | 0 <= i < CELL_CAPACITY ::
                cells[i].isEntrance <==> i == CellIndex(numCols, numRows, 0, 0)
      ensures forall i | 0 <= i < CELL_CAPACITY ::
                cells[i].isExit <==> i == CellIndex(numCols, numRows, numCols - 1, numRows - 1)
      ensures complete <==> forall i | Active(numCols, numRows, i) :: cells[i].visited
      ensures complete ==> OpenCount(edges[..], EDGE_CAPACITY) == ActiveCount(numCols, numRows) - 1
      ensures complete ==>
                forall i | Active(numCols, numRows, i) ::
                  Connects(numCols, numRows, edges[..], CellIndex(numCols, numRows, 0, 0), i)
      ensures used <= |draws| && Chain(numCols, numRows, draws, walks)
      ensures complete ==> used == ChainEnd(walks)
      ensures !complete ==>
                used == |draws| && walks != [] && StuckOn(numCols, numRows, draws, walks[|walks| - 1], cells[..])
    {
      Seed();
      complete, used, walks := GenPaths(draws);
      MarkEnds();
      if complete {
        assert CellIndex(numCols, numRows, 0, 0) == 0;
        CompleteTree(numCols, numRows, cells[..], edges[..], root, rank, maxRank);
      }
    }
  }
}

=== FILE: records.dfy ===
/**
 * The two records the maze stores by value in its arenas (cell.h, edge.h),
 * and the counts of visited cells and open edges that the generator keeps
 * in balance.
 */
module Records {
  import opened Directions

  /**
   * `class Cell`: the generator's flags, the direction the last walk took
   * from this cell, the entrance and exit marks, and the cell's position
   * `(posX, posY)` with the origin at the top left.
   */
  datatype Cell = Cell(
    visited: bool,
    lastWalked: Direction,
    isEntrance: bool,
    isExit: bool,
    posX: int,
    posY: int)

  /** A cell as its member initialisers leave it, at the given position. */
  function NewCell(posX: int, posY: int): Cell
  {
    Cell(false, None, false, false, posX, posY)
  }

  /** `class Edge`: one wall; `isBlocking` starts true. */
  datatype Edge = Edge(isBlocking: bool)

  const NEW_EDGE: Edge := Edge(true)

  // ---------------------------------------------------------------------
  // Counting visited cells

  /** The number of visited cells among the first `n` slots. */
  function VisitedCount(cells: seq<Cell>, n: nat): (k: nat)
    requires n <= |cells|
    ensures k <= n
  {
    if n == 0 then 0
    else VisitedCount(cells, n - 1) + (if cells[n - 1].visited then 1 else 0)
  }

  /** The count sees only the visited flags. */
  lemma {:induction false} VisitedCountSameFlags(a: seq<Cell>, b: seq<Cell>, n: nat)
    requires n <= |a| && n <= |b|
    requires forall k | 0 <= k < n :: a[k].visited == b[k].visited
    ensures VisitedCount(a, n) == VisitedCount(b, n)
  {
    if n > 0 {
      VisitedCountSameFlags(a, b, n - 1);
    }
  }

  /** Marking one unvisited slot visited, and changing no other flag, adds one. */
  lemma {:induction false} VisitedCountMark(a: seq<Cell>, b: seq<Cell>, n: nat, i: nat)
    requires n <= |a| && n <= |b| && i < n
    requires !a[i].visited && b[i].visited
    requires forall k | 0 <= k < n && k != i :: a[k].visited == b[k].visited
    ensures VisitedCount(b, n) == VisitedCount(a, n) + 1
  {
    if i == n - 1 {
      VisitedCountSameFlags(a, b, n - 1);
    } else {
      VisitedCountMark(a, b, n - 1, i);
    }
  }

  /** The count reaches `n` exactly when every one of the first `n` slots is visited. */
  lemma {:induction false} VisitedCountFull(cells: seq<Cell>, n: nat)
    requires n <= |cells|
    ensures VisitedCount(cells, n) == n <==> forall k | 0 <= k < n :: cells[k].visited
  {
    if n > 0 {
      VisitedCountFull(cells, n - 1);
    }
  }

  /** The count is zero exactly when none of the first `n` slots is visited. */
  lemma {:induction false} VisitedCountEmpty(cells: seq<Cell>, n: nat)
    requires n <= |cells|
    ensures VisitedCount(cells, n) == 0 <==> forall k | 0 <= k < n :: !cells[k].visited
  {
    if n > 0 {
      VisitedCountEmpty(cells, n - 1);
    }
  }

  // ---------------------------------------------------------------------
  // Counting open edges

  /** The number of non-blocking edges among the first `n` slots. */
  function OpenCount(edges: seq<Edge>, n: nat): (k: nat)
    requires n <= |edges|
    ensures k <= n
  {
    if n == 0 then 0
    else OpenCount(edges, n - 1) + (if edges[n - 1].isBlocking then 0 else 1)
  }

  /** Opening one blocking slot, and changing no other, adds one. */
  lemma {:induction false} OpenCountOpen(a: seq<Edge>, b: seq<Edge>, n: nat, e: nat)
    requires n <= |a| && n <= |b| && e < n
    requires a[e].isBlocking && !b[e].isBlocking
    requires forall k | 0 <= k < n && k != e :: a[k] == b[k]
    ensures OpenCount(b, n) == OpenCount(a, n) + 1
  {
    if e < n - 1 {
      OpenCountOpen(a, b, n - 1, e);
    } else {
      OpenCountSame(a, b, n - 1);
    }
  }

  lemma {:induction false} OpenCountSame(a: seq<Edge>, b: seq<Edge>, n: nat)
    requires n <= |a| && n <= |b|
    requires forall k | 0 <= k < n :: a[k] == b[k]
    ensures OpenCount(a, n) == OpenCount(b, n)
  {
    if n > 0 {
      OpenCountSame(a, b, n - 1);
    }
  }

  /** The count is zero exactly when all of the first `n` slots are blocking. */
  lemma {:induction false} OpenCountEmpty(edges: seq<Edge>, n: nat)
    requires n <= |edges|
    ensures OpenCount(edges, n) == 0 <==> forall k | 0 <= k < n :: edges[k].isBlocking
  {
    if n > 0 {
      OpenCountEmpty(edges, n - 1);
    }
  }
}

=== FILE: spanning.dfy ===
/**
 * Why the generator of maze.cpp connects every cell to the entrance and opens
 * cells - 1 walls.
 *
 * The random walk of `genPath` leaves in each cell it passes the direction
 * it took from that cell the LAST time it stood there. Giving every cell of
 * the walk the time of its last visit, each pointer leads to a cell whose
 * last visit is strictly later (`WalkTrail`), so the replay that commits the
 * path from `pathStart` climbs strictly in time: it ends, never cycles, and
 * each step marks one new cell visited and opens one wall that was closed
 * (`CommitInv`). Between paths the maze keeps `TreeInv`: walls are open only
 * between visited cells, every visited cell but the seed points over an open
 * wall to a visited cell of lower rank, and open walls = visited cells - 1.
 * From it every visited cell reaches the seed over open walls.
 */
module Spanning {
  import opened Directions
  import opened Grid
  import opened Records

  /** The two arenas at their fixed sizes, and dimensions that fit them. */
  ghost predicate Arenas(cols: int, rows: int, cells: seq<Cell>, edges: seq<Edge>)
  {
    ValidDims(cols, rows) && |cells| == CELL_CAPACITY && |edges| == EDGE_CAPACITY
  }

  /** The wall of slot `i` on side `d` is open. */
  ghost predicate Open(cols: int, rows: int, edges: seq<Edge>, i: int, d: Direction)
    requires ValidDims(cols, rows) && |edges| == EDGE_CAPACITY
    requires Active(cols, rows, i) && d != None
  {
    !edges[EdgeOf(cols, rows, i, d)].isBlocking
  }

  /**
   * Every open wall of an active cell is an inner wall, and the cell is
   * visited, except for the one wall the replay opened just behind `cur`
   * (the wall between `cur` and `prev`).
   */
  ghost predicate OpenOnlyAtVisited(cols: int, rows: int, cells: seq<Cell>, edges: seq<Edge>,
                                    cur: int, prev: int)
    requires Arenas(cols, rows, cells, edges)
  {
    forall i, d | Active(cols, rows, i) && d != None && Open(cols, rows, edges, i, d) ::
      && CanStep(cols, rows, i, d)
      && (cells[i].visited || (i == cur && NeighborOf(cols, rows, i, d) == prev))
  }

  /**
   * Cell `i` points over an open wall to a cell of lower rank, which is
   * visited or is the cell `cur` the replay is about to commit.
   */
  ghost predicate HasParent(cols: int, rows: int, cells: seq<Cell>, edges: seq<Edge>,
                            rank: seq<int>, cur: int, i: int)
    requires Arenas(cols, rows, cells, edges) && |rank| == CELL_CAPACITY
    requires Active(cols, rows, i)
  {
    var d := cells[i].lastWalked;
    && CanStep(cols, rows, i, d)
    && Open(cols, rows, edges, i, d)
    && var p := NeighborOf(cols, rows, i, d);
       (cells[p].visited || p == cur) && rank[p] < rank[i]
  }

  ghost predicate ParentsOpen(cols: int, rows: int, cells: seq<Cell>, edges: seq<Edge>,
                              root: int, rank: seq<int>, cur: int)
    requires Arenas(cols, rows, cells, edges) && |rank| == CELL_CAPACITY
  {
    forall i {:trigger HasParent(cols, rows, cells, edges, rank, cur, i)}
      | Active(cols, rows, i) && cells[i].visited && i != root ::
      HasParent(cols, rows, cells, edges, rank, cur, i)
  }

  ghost predicate RanksBelow(cols: int, rows: int, cells: seq<Cell>, rank: seq<int>, maxRank: int)
    requires ValidDims(cols, rows) && |cells| == CELL_CAPACITY && |rank| == CELL_CAPACITY
  {
    forall i | Active(cols, rows, i) && cells[i].visited :: 0 <= rank[i] <= maxRank
  }

  /** The invariant of generation between two paths, once the seed `root` is visited. */
  ghost predicate TreeInv(cols: int, rows: int, cells: seq<Cell>, edges: seq<Edge>,
                          root: int, rank: seq<int>, maxRank: int)
  {
    && Arenas(cols, rows, cells, edges) && |rank| == CELL_CAPACITY && 0 <= maxRank
    && Active(cols, rows, root) && cells[root].visited
    && OpenOnlyAtVisited(cols, rows, cells, edges, -1, -1)
    && ParentsOpen(cols, rows, cells, edges, root, rank, -1)
    && RanksBelow(cols, rows, cells, rank, maxRank)
    && OpenCount(edges, EDGE_CAPACITY) + 1 == VisitedCount(cells, ActiveCount(cols, rows))
  }

  /**
   * Marking one cell of a fresh maze visited starts the tree: one visited
   * cell, no open wall.
   */
  lemma SeedTree(cols: int, rows: int, cells: seq<Cell>, edges: seq<Edge>, s: int)
    requires Arenas(cols, rows, cells, edges) && Active(cols, rows, s)
    requires forall i | 0 <= i < CELL_CAPACITY :: !cells[i].visited
    requires forall e | 0 <= e < EDGE_CAPACITY :: edges[e].isBlocking
    ensures TreeInv(cols, rows, cells[s := cells[s].(visited := true)], edges, s, seq(CELL_CAPACITY, _ => 0), 0)
  {
    var n := ActiveCount(cols, rows);
    var cells' := cells[s := cells[s].(visited := true)];
    VisitedCountEmpty(cells, n);
    VisitedCountMark(cells, cells', n, s);
    OpenCountEmpty(edges, EDGE_CAPACITY);
  }

  /** Under the tree invariant every wall on the border of the grid is still blocking. */
  lemma BorderStaysClosed(cols: int, rows: int, cells: seq<Cell>, edges: seq<Edge>,
                          root: int, rank: seq<int>, maxRank: int)
    requires TreeInv(cols, rows, cells, edges, root, rank, maxRank)
    ensures forall i, d | Active(cols, rows, i) && d != None && Blocked(cols, rows, i % cols, i / cols, d) ::
              edges[EdgeOf(cols, rows, i, d)].isBlocking
  {
    forall i, d | Active(cols, rows, i) && d != None && Blocked(cols, rows, i % cols, i / cols, d)
      ensures edges[EdgeOf(cols, rows, i, d)].isBlocking
    {
      assert Open(cols, rows, edges, i, d) ==> CanStep(cols, rows, i, d);
    }
  }

  // ---------------------------------------------------------------------
  // The walk phase

  /** The pointer of walk cell `c` leads to a walk cell visited last at a later time. */
  ghost predicate Ascends(cols: int, rows: int, cells: seq<Cell>, last: map<int, nat>, c: int)
    requires ValidDims(cols, rows) && |cells| == CELL_CAPACITY
    requires Active(cols, rows, c) && c in last
  {
    var d := cells[c].lastWalked;
    && CanStep(cols, rows, c, d)
    && NeighborOf(cols, rows, c, d) in last
    && last[c] < last[NeighborOf(cols, rows, c, d)]
  }

  /**
   * After `t` steps the walk stands on `cur`; `last` maps every cell it has
   * stood on to the time it last stood there. Every cell it has left is
   * unvisited and its pointer ascends in time.
   */
  ghost predicate WalkTrail(cols: int, rows: int, cells: seq<Cell>, last: map<int, nat>, cur: int, t: nat)
    requires ValidDims(cols, rows) && |cells| == CELL_CAPACITY
  {
    && cur in last && last[cur] == t
    && (forall c | c in last :: Active(cols, rows, c) && last[c] <= t)
    && (forall c | c in last && c != cur :: Active(cols, rows, c) && !cells[c].visited)
    && (forall c {:trigger Ascends(cols, rows, cells, last, c)} | c in last && c != cur ::
          Active(cols, rows, c) && Ascends(cols, rows, cells, last, c))
  }

  lemma WalkStart(cols: int, rows: int, cells: seq<Cell>, s: int)
    requires ValidDims(cols, rows) && |cells| == CELL_CAPACITY && Active(cols, rows, s)
    ensures WalkTrail(cols, rows, cells, map[s := 0], s, 0)
  {
  }

  /**
   * One step of the walk: writing the accepted direction into the current
   * (unvisited) cell and moving on keeps every pointer ascending in time,
   * because the step overwrites the pointer of the only cell whose last
   * visit just ended, and only raises the time of the cell it moves to.
   */
  lemma WalkStep(cols: int, rows: int, cells: seq<Cell>, last: map<int, nat>, cur: int, t: nat, d: Direction)
    requires ValidDims(cols, rows) && |cells| == CELL_CAPACITY
    requires WalkTrail(cols, rows, cells, last, cur, t)
    requires !cells[cur].visited && CanStep(cols, rows, cur, d)
    ensures WalkTrail(cols, rows, cells[cur := cells[cur].(lastWalked := d)],
                      last[NeighborOf(cols, rows, cur, d) := t + 1], NeighborOf(cols, rows, cur, d), t + 1)
  {
    var next := NeighborOf(cols, rows, cur, d);
    var cells' := cells[cur := cells[cur].(lastWalked := d)];
    var last' := last[next := t + 1];
    forall c | c in last' && c != next
      ensures Active(cols, rows, c) && !cells'[c].visited && Ascends(cols, rows, cells', last', c)
    {
      if c != cur {
        assert Ascends(cols, rows, cells, last, c);
        var m := NeighborOf(cols, rows, c, cells[c].lastWalked);
        assert m in last && last[c] < last[m];
        assert last[c] < last'[m];
      }
    }
  }

  /**
   * The walk writes only pointers of unvisited cells, which the tree
   * invariant does not look at: any such change keeps it.
   */
  lemma TreeInvSkeleton(cols: int, rows: int, a: seq<Cell>, b: seq<Cell>, edges: seq<Edge>,
                        root: int, rank: seq<int>, maxRank: int)
    requires TreeInv(cols, rows, a, edges, root, rank, maxRank) && |b| == CELL_CAPACITY
    requires forall i | 0 <= i < CELL_CAPACITY ::
               b[i].visited == a[i].visited && (a[i].visited ==> b[i].lastWalked == a[i].lastWalked)
    ensures TreeInv(cols, rows, b, edges, root, rank, maxRank)
  {
    VisitedCountSameFlags(a, b, ActiveCount(cols, rows));
    forall i | Active(cols, rows, i) && b[i].visited && i != root
      ensures HasParent(cols, rows, b, edges, rank, -1, i)
    {
      assert HasParent(cols, rows, a, edges, rank, -1, i);
    }
  }

  // ---------------------------------------------------------------------
  // The commit phase

  /** The ranks the replay gives the cells of the walk: later last visit, lower rank. */
  ghost function Rerank(rank: seq<int>, last: map<int, nat>, hit: int, t: nat, base: int): (r: seq<int>)
    ensures |r| == |rank|
    ensures forall k | 0 <= k < |rank| ::
              r[k] == if k in last && k != hit then base + t - last[k] else rank[k]
  {
    seq(|rank|, k requires 0 <= k < |rank| => if k in last && k != hit then base + t - last[k] else rank[k])
  }

  /**
   * The invariant of the replay that commits a walk which reached the
   * visited cell `hit` after `t` steps: the pointers still ascend in time,
   * the replay stands on `cur`, having come from `prev` (-1 before the first
   * step), and the tree invariant holds up to the wall behind `cur`.
   */
  ghost predicate CommitInv(cols: int, rows: int, cells: seq<Cell>, edges: seq<Edge>,
                            root: int, rank: seq<int>, maxRank: int,
                            last: map<int, nat>, hit: int, t: nat, base: int, cur: int, prev: int)
  {
    && Arenas(cols, rows, cells, edges) && |rank| == CELL_CAPACITY && 1 <= base
    && hit in last && last[hit] == t && cur in last
    && (forall c | c in last :: Active(cols, rows, c) && last[c] <= t)
    && (forall c | c in last && c != hit :: Active(cols, rows, c) && rank[c] == base + t - last[c])
    && (forall c {:trigger Ascends(cols, rows, cells, last, c)} | c in last && c != hit ::
          Active(cols, rows, c) && Ascends(cols, rows, cells, last, c))
    && Active(cols, rows, hit) && cells[hit].visited && rank[hit] < base && base + t <= maxRank
    && (prev == -1 ||
        (prev in last && prev != hit && Active(cols, rows, prev) && Ascends(cols, rows, cells, last, prev) &&
         NeighborOf(cols, rows, prev, cells[prev].lastWalked) == cur))
    && Active(cols, rows, root) && cells[root].visited
    && OpenOnlyAtVisited(cols, rows, cells, edges, cur, prev)
    && ParentsOpen(cols, rows, cells, edges, root, rank, cur)
    && RanksBelow(cols, rows, cells, rank, maxRank)
    && OpenCount(edges, EDGE_CAPACITY) + 1 == VisitedCount(cells, ActiveCount(cols, rows))
  }

  /** A finished walk, started at `s`, can be replayed from `s`. */
  lemma CommitStart(cols: int, rows: int, cells: seq<Cell>, edges: seq<Edge>,
                    root: int, rank: seq<int>, maxRank: int,
                    last: map<int, nat>, hit: int, t: nat, s: int)
    requires TreeInv(cols, rows, cells, edges, root, rank, maxRank)
    requires WalkTrail(cols, rows, cells, last, hit, t) && cells[hit].visited && s in last
    ensures CommitInv(cols, rows, cells, edges, root, Rerank(rank, last, hit, t, maxRank + 1),
                      maxRank + 1 + t, last, hit, t, maxRank + 1, s, -1)
  {
    var base := maxRank + 1;
    var rank' := Rerank(rank, last, hit, t, base);
    forall i | Active(cols, rows, i) && cells[i].visited && i != root
      ensures HasParent(cols, rows, cells, edges, rank', s, i)
    {
      assert HasParent(cols, rows, cells, edges, rank, -1, i);
    }
  }

  /**
   * The wall the replay opens at an unvisited `cur` is still closed: the
   * only open wall at `cur` leads back to `prev`, and `cur`'s pointer leads
   * forward in time, away from `prev`.
   */
  lemma CommitWallClosed(cols: int, rows: int, cells: seq<Cell>, edges: seq<Edge>,
                         root: int, rank: seq<int>, maxRank: int,
                         last: map<int, nat>, hit: int, t: nat, base: int, cur: int, prev: int)
    requires CommitInv(cols, rows, cells, edges, root, rank, maxRank, last, hit, t, base, cur, prev)
    requires !cells[cur].visited
    ensures cur != hit && Ascends(cols, rows, cells, last, cur)
    ensures edges[EdgeOf(cols, rows, cur, cells[cur].lastWalked)].isBlocking
  {
  }

  /** After a replay step, the open walls are again only at visited cells, up to the new wall behind `next`. */
  lemma CommitStepWalls(cols: int, rows: int, cells: seq<Cell>, edges: seq<Edge>, cur: int, prev: int)
    requires Arenas(cols, rows, cells, edges) && Active(cols, rows, cur) && !cells[cur].visited
    requires OpenOnlyAtVisited(cols, rows, cells, edges, cur, prev)
    requires CanStep(cols, rows, cur, cells[cur].lastWalked)
    ensures OpenOnlyAtVisited(cols, rows, cells[cur := cells[cur].(visited := true)],
                              edges[EdgeOf(cols, rows, cur, cells[cur].lastWalked) := Edge(false)],
                              NeighborOf(cols, rows, cur, cells[cur].lastWalked), cur)
  {
    var d := cells[cur].lastWalked;
    var e := EdgeOf(cols, rows, cur, d);
    var next := NeighborOf(cols, rows, cur, d);
    var cells' := cells[cur := cells[cur].(visited := true)];
    var edges' := edges[e := Edge(false)];
    forall i, d' | Active(cols, rows, i) && d' != None && Open(cols, rows, edges', i, d')
      ensures CanStep(cols, rows, i, d') && (cells'[i].visited || (i == next && NeighborOf(cols, rows, i, d') == cur))
    {
      if EdgeOf(cols, rows, i, d') == e {
        EdgeOfInjective(cols, rows, i, d', cur, d);
      } else {
        assert Open(cols, rows, edges, i, d');
      }
    }
  }

  /** After a replay step, every visited cell but the root again has a parent. */
  lemma CommitStepParents(cols: int, rows: int, cells: seq<Cell>, edges: seq<Edge>,
                          root: int, rank: seq<int>, maxRank: int,
                          last: map<int, nat>, hit: int, t: nat, base: int, cur: int, prev: int)
    requires CommitInv(cols, rows, cells, edges, root, rank, maxRank, last, hit, t, base, cur, prev)
    requires !cells[cur].visited && cur != hit && Ascends(cols, rows, cells, last, cur)
    ensures ParentsOpen(cols, rows, cells[cur := cells[cur].(visited := true)],
                        edges[EdgeOf(cols, rows, cur, cells[cur].lastWalked) := Edge(false)],
                        root, rank, NeighborOf(cols, rows, cur, cells[cur].lastWalked))
  {
    var d := cells[cur].lastWalked;
    var e := EdgeOf(cols, rows, cur, d);
    var next := NeighborOf(cols, rows, cur, d);
    var cells' := cells[cur := cells[cur].(visited := true)];
    var edges' := edges[e := Edge(false)];
    forall i | Active(cols, rows, i) && cells'[i].visited && i != root
      ensures HasParent(cols, rows, cells', edges', rank, next, i)
    {
      if i == cur {
        assert Open(cols, rows, edges', cur, d);
        assert last[cur] < last[next] <= t;
        if next != hit {
          assert rank[next] == base + t - last[next];
        }
      } else {
        assert HasParent(cols, rows, cells, edges, rank, cur, i);
        var p := NeighborOf(cols, rows, i, cells[i].lastWalked);
        assert Open(cols, rows, edges', i, cells[i].lastWalked);
        assert cells'[p].visited || p == next;
      }
    }
  }

  /**
   * One replay step at an unvisited `cur`: it marks `cur` visited, opens the
   * closed wall in `cur`'s pointer direction, moves to a cell visited later
   * in the walk, and keeps open walls = visited cells - 1.
   */
  lemma CommitStep(cols: int, rows: int, cells: seq<Cell>, edges: seq<Edge>,
                   root: int, rank: seq<int>, maxRank: int,
                   last: map<int, nat>, hit: int, t: nat, base: int, cur: int, prev: int)
    requires CommitInv(cols, rows, cells, edges, root, rank, maxRank, last, hit, t, base, cur, prev)
    requires !cells[cur].visited
    ensures cur != hit && Ascends(cols, rows, cells, last, cur)
    ensures CanStep(cols, rows, cur, cells[cur].lastWalked)
    ensures edges[EdgeOf(cols, rows, cur, cells[cur].lastWalked)].isBlocking
    ensures last[cur] < last[NeighborOf(cols, rows, cur, cells[cur].lastWalked)]
    ensures VisitedCount(cells[cur := cells[cur].(visited := true)], ActiveCount(cols, rows)) ==
            VisitedCount(cells, ActiveCount(cols, rows)) + 1
    ensures CommitInv(cols, rows, cells[cur := cells[cur].(visited := true)],
                      edges[EdgeOf(cols, rows, cur, cells[cur].lastWalked) := Edge(false)],
                      root, rank, maxRank, last, hit, t, base,
                      NeighborOf(cols, rows, cur, cells[cur].lastWalked), cur)
  {
    CommitWallClosed(cols, rows, cells, edges, root, rank, maxRank, last, hit, t, base, cur, prev);
    var d := cells[cur].lastWalked;
    var e := EdgeOf(cols, rows, cur, d);
    var next := NeighborOf(cols, rows, cur, d);
    var cells' := cells[cur := cells[cur].(visited := true)];
    var edges' := edges[e := Edge(false)];
    VisitedCountMark(cells, cells', ActiveCount(cols, rows), cur);
    OpenCountOpen(edges, edges', EDGE_CAPACITY, e);
    CommitStepWalls(cols, rows, cells, edges, cur, prev);
    CommitStepParents(cols, rows, cells, edges, root, rank, maxRank, last, hit, t, base, cur, prev);
    forall c | c in last && c != hit
      ensures Ascends(cols, rows, cells', last, c)
    {
      assert Ascends(cols, rows, cells, last, c);
    }
    assert Ascends(cols, rows, cells', last, cur);
  }

  /** When the replay reaches a visited cell, the tree invariant holds again. */
  lemma CommitEnd(cols: int, rows: int, cells: seq<Cell>, edges: seq<Edge>,
                  root: int, rank: seq<int>, maxRank: int,
                  last: map<int, nat>, hit: int, t: nat, base: int, cur: int, prev: int)
    requires CommitInv(cols, rows, cells, edges, root, rank, maxRank, last, hit, t, base, cur, prev)
    requires cells[cur].visited
    ensures TreeInv(cols, rows, cells, edges, root, rank, maxRank)
  {
    forall i | Active(cols, rows, i) && cells[i].visited && i != root
      ensures HasParent(cols, rows, cells, edges, rank, -1, i)
    {
      assert HasParent(cols, rows, cells, edges, rank, cur, i);
    }
  }

  // ---------------------------------------------------------------------
  // Connectivity

  /** Following `path` from slot `i` crosses only open inner walls and ends at slot `j`. */
  ghost predicate Leads(cols: int, rows: int, edges: seq<Edge>, i: int, path: seq<Direction>, j: int)
    requires ValidDims(cols, rows) && |edges| == EDGE_CAPACITY && Active(cols, rows, i)
    decreases |path|
  {
    if path == [] then i == j
    else
      && CanStep(cols, rows, i, path[0])
      && Open(cols, rows, edges, i, path[0])
      && Leads(cols, rows, edges, NeighborOf(cols, rows, i, path[0]), path[1..], j)
  }

  /** Some walk over open inner walls leads from slot `i` to slot `j`. */
  ghost predicate Connects(cols: int, rows: int, edges: seq<Edge>, i: int, j: int)
    requires ValidDims(cols, rows) && |edges| == EDGE_CAPACITY && Active(cols, rows, i)
  {
    exists path :: Leads(cols, rows, edges, i, path, j)
  }

  /** Every visited cell reaches the seed over open walls, by following its pointers down in rank. */
  lemma {:induction false} ReachesRoot(cols: int, rows: int, cells: seq<Cell>, edges: seq<Edge>,
                                       root: int, rank: seq<int>, maxRank: int, i: int)
    requires TreeInv(cols, rows, cells, edges, root, rank, maxRank)
    requires Active(cols, rows, i) && cells[i].visited
    ensures exists path :: Leads(cols, rows, edges, i, path, root)
    decreases rank[i]
  {
    if i == root {
      assert Leads(cols, rows, edges, i, [], root);
    } else {
      assert HasParent(cols, rows, cells, edges, rank, -1, i);
      var d := cells[i].lastWalked;
      var p := NeighborOf(cols, rows, i, d);
      ReachesRoot(cols, rows, cells, edges, root, rank, maxRank, p);
      var path :| Leads(cols, rows, edges, p, path, root);
      assert ([d] + path)[1..] == path;
      assert Leads(cols, rows, edges, i, [d] + path, root);
    }
  }

  lemma {:induction false} LeadsEnd(cols: int, rows: int, edges: seq<Edge>, i: int, p: seq<Direction>, j: int)
    requires ValidDims(cols, rows) && |edges| == EDGE_CAPACITY && Active(cols, rows, i)
    requires Leads(cols, rows, edges, i, p, j)
    ensures Active(cols, rows, j)
    ensures forall k | 0 <= k < |p| :: p[k] != None
    decreases |p|
  {
    if p != [] {
      LeadsEnd(cols, rows, edges, NeighborOf(cols, rows, i, p[0]), p[1..], j);
      assert forall k | 1 <= k < |p| :: p[k] == p[1..][k - 1];
    }
  }

  /** Two walks over open walls, one after the other. */
  lemma {:induction false} LeadsAppend(cols: int, rows: int, edges: seq<Edge>,
                                       i: int, p: seq<Direction>, j: int, q: seq<Direction>, k: int)
    requires ValidDims(cols, rows) && |edges| == EDGE_CAPACITY
    requires Active(cols, rows, i) && Active(cols, rows, j)
    requires Leads(cols, rows, edges, i, p, j) && Leads(cols, rows, edges, j, q, k)
    ensures Leads(cols, rows, edges, i, p + q, k)
    decreases |p|
  {
    if p == [] {
      assert p + q == q;
    } else {
      var n := NeighborOf(cols, rows, i, p[0]);
      LeadsAppend(cols, rows, edges, n, p[1..], j, q, k);
      var pq := p + q;
      assert pq != [] && pq[0] == p[0] && pq[1..] == p[1..] + q;
      assert Leads(cols, rows, edges, n, pq[1..], k);
    }
  }


  /** A path walked backwards: reversed, every step turned round. */
  function Reversed(path: seq<Direction>): (r: seq<Direction>)
    requires forall k | 0 <= k < |path| :: path[k] != None
    ensures |r| == |path|
    ensures forall k | 0 <= k < |r| :: r[k] != None
  {
    if path == [] then [] else Reversed(path[1..]) + [Opposite(path[0])]
  }

  /** Open walls can be crossed both ways, so every walk can be walked back. */
  lemma {:induction false} LeadsReverse(cols: int, rows: int, edges: seq<Edge>, i: int, p: seq<Direction>, j: int)
    requires ValidDims(cols, rows) && |edges| == EDGE_CAPACITY && Active(cols, rows, i)
    requires Leads(cols, rows, edges, i, p, j)
    ensures Active(cols, rows, j) && (forall k | 0 <= k < |p| :: p[k] != None)
    ensures Leads(cols, rows, edges, j, Reversed(p), i)
    decreases |p|
  {
    LeadsEnd(cols, rows, edges, i, p, j);
    if p == [] {
    } else {
      var d := p[0];
      var n := NeighborOf(cols, rows, i, d);
      LeadsReverse(cols, rows, edges, n, p[1..], j);
      StepBack(cols, rows, i, d);
      assert [Opposite(d)][1..] == [];
      assert Leads(cols, rows, edges, n, [Opposite(d)], i);
      LeadsAppend(cols, rows, edges, j, Reversed(p[1..]), n, [Opposite(d)], i);
    }
  }

  /** The entrance slot 0 reaches every visited cell through the seed. */
  lemma EntranceReaches(cols: int, rows: int, cells: seq<Cell>, edges: seq<Edge>,
                        root: int, rank: seq<int>, maxRank: int, i: int)
    requires TreeInv(cols, rows, cells, edges, root, rank, maxRank)
    requires Active(cols, rows, 0) && cells[0].visited
    requires Active(cols, rows, i) && cells[i].visited
    ensures Connects(cols, rows, edges, 0, i)
  {
    ReachesRoot(cols, rows, cells, edges, root, rank, maxRank, 0);
    ReachesRoot(cols, rows, cells, edges, root, rank, maxRank, i);
    var p0 :| Leads(cols, rows, edges, 0, p0, root);
    var pi :| Leads(cols, rows, edges, i, pi, root);
    LeadsReverse(cols, rows, edges, i, pi, root);
    LeadsAppend(cols, rows, edges, 0, p0, root, Reversed(pi), i);
    assert Leads(cols, rows, edges, 0, p0 + Reversed(pi), i);
  }

  /**
   * Once every active cell is visited the tree spans the grid: the open
   * walls number one less than the cells, and the entrance slot 0 reaches
   * every active cell over open walls.
   */
  lemma CompleteTree(cols: int, rows: int, cells: seq<Cell>, edges: seq<Edge>,
                     root: int, rank: seq<int>, maxRank: int)
    requires TreeInv(cols, rows, cells, edges, root, rank, maxRank)
    requires forall k | Active(cols, rows, k) :: cells[k].visited
    ensures OpenCount(edges, EDGE_CAPACITY) == ActiveCount(cols, rows) - 1
    ensures forall i | Active(cols, rows, i) :: Connects(cols, rows, edges, 0, i)
  {
    VisitedCountFull(cells, ActiveCount(cols, rows));
    forall i | Active(cols, rows, i)
      ensures Connects(cols, rows, edges, 0, i)
    {
      EntranceReaches(cols, rows, cells, edges, root, rank, maxRank, i);
    }
  }
}
